=== FILE: README.md ===
# Voice-join notifier, modelled in Dafny

The bot watches Discord voice channels. When someone joins a voice channel
and the join leaves exactly one human in it, the bot posts a card to a
webhook the guild has configured. The card has
three fields: channel, starter and start time. The model covers three parts
of that bot:

- **The notification engine (`bot.py`).** `vc_is_target` decides whether a
  channel is a target. `can_notify` is the cooldown check-and-set on
  `last_notice_at`. `on_voice_state_update` runs its early-return guards
  (join, target, first human, webhook, cooldown) in order, then builds the
  payload. `post_webhook` does a first POST and at most one retry after an
  HTTP 429.
- **The configuration store (`config_util.py`).** `conf` is a map from guild
  id (as text) to a per-guild map. `get_guild_cfg` fills in the defaults with
  `setdefault`. `set_guild_cfg` assigns one key.
- **The settings panel's rules (`ui_views/settings_view.py`).** These are
  the webhook URL check, the cooldown range check, the role choice, the
  target-channel toggle, the role option list and the status display.

Modules, one per concern:

| file | module | models |
|---|---|---|
| `wrappers.dfy` | `Wrappers` | `Option` |
| `pytext.dfy` | `PyText` | the Python string built-ins the code relies on: `str.strip`, `startswith`, `in`, `str(int)`, `int(str)` and `", ".join` |
| `config_util.dfy` | `ConfigUtil` | config values, the nested `conf` map, and the class `ConfigStore` that owns it |
| `cooldown.dfy` | `Cooldown` | `can_notify`, as the class `CooldownTracker` that owns `last_notice_at` |
| `webhook.dfy` | `Webhook` | `post_webhook`, over two abstract POST attempts |
| `notify.dfy` | `Notify` | `vc_is_target`, the payload, and the handler |
| `settings_view.dfy` | `SettingsView` | the settings callbacks |

State changes are modelled in place, as methods. `ConfigStore` owns `conf`
and `CooldownTracker` owns `last_notice_at`. Each method is proved equal to
a pure specification function, and the properties are proved about those
functions:

| method | specification function |
|---|---|
| `GetGuildCfg` | `Lookup` and `FillDefaults` |
| `SetGuildCfg` | `Assign` |
| `CanNotify` | `Grants` and `Acquire` |
| `PostWebhook` | `Dispatch` |
| `OnVoiceStateUpdate` | `Handle` |

Python's behaviour is written out where it matters:

- truthiness of config values;
- `int()` on text: surrounding whitespace (not the ASCII separators U+001C..U+001F, which `str.strip` drops but `int()` rejects), an optional sign, then decimal digits;
- `str()` of an int;
- iteration over a string stored where a list of ids is expected (one digit at a time);
- a missing dictionary key giving `None`.

Where Python would raise, the model returns `None` (or `Raised`, in the
handler) instead.

Inputs that come from outside the program are parameters:

- the clock readings `now` (a real) and `ts` (an int);
- the random colour, in 0..0xFFFFFF;
- the webhook's two possible replies;
- Discord's member and channel data.

## Behaviour as written

The model follows the code as written, including where it does less than a
reader of its purpose might expect. The code's only statement of who should
be announced is the comment at bot.py:91, "notify only the first person".

- **Bot joins.** No guard tests whether the member who joined is human. The
  only bot handling is the count of non-bot members in the channel. A bot
  that joins a channel holding exactly one human is therefore announced, and
  named as the starter. `Notify.BotJoinIsAnnounced` states this.
- **Never-notified channels.** A channel with no entry in `last_notice_at`
  is read as last notified at time `0.0` (`Cooldown.LastNotice`). It is not
  treated as notified "never". The two readings agree whenever `now`
  (seconds since 1970) exceeds the cooldown, as real clock readings do.
- **Failure reasons.** The reasons are the code's strings: `"timeout"`,
  `"HTTP <code>"`, `"HTTP <code> after retry"`, and the exception's text for
  other faults.
- **"All channels" text.** The status display shows `全VC対象` for an empty
  target list. It also shows that text for a one-entry list whose channel
  happens to be named `全VC対象`. `SettingsView.AllChannelsOnlyWhenNoTargets`
  states the "only when" direction, with that exception.

## Model

| member | source | states |
|---|---|---|
| `ConfigUtil.Truthy` | bot.py:95 | definition only: Python truthiness of a config value (`None`, `0`, `""` and `[]` are false) |
| `ConfigUtil.PyInt` | bot.py:98 | `int(v)` of a config value. An int is itself. Text converts exactly as `ParseInt` reads it, and succeeds exactly when it holds no ASCII separator and the stripped text is an optional sign followed by digits. `None` and a list raise |
| `ConfigUtil.PyStr` | ui_views/settings_view.py:44-53 | definition only: `str(v)` as an f-string prints it (`None`, the number, the text, or `[1, 2]`) |
| `ConfigUtil.PyIterInts` | ui_views/settings_view.py:127 | `map(int, v)`: a list gives its ids. A string succeeds exactly when every character is a digit, and then gives each character's digit value in order. `None` and an int raise |
| `ConfigUtil.Get` | config_util.py:24 | definition only: `dict.get(key)`, with a missing key giving `None` |
| `ConfigUtil.GetOr` | ui_views/settings_view.py:45-46 | definition only: `dict.get(key, default)` |
| `ConfigUtil.Stored` | config_util.py:24 | definition only: `conf.get(str(gid), {})`; `Lookup` and `Assign` are built on it |
| `ConfigUtil.SetDefault` | config_util.py:25-26 | `setdefault` keeps an existing value, adds the default only when the key is missing, and touches no other key |
| `ConfigUtil.Defaulted` | config_util.py:24-27 | the per-guild map with `cooldown_sec` (default 300) and `target_vc_ids` (default `[]`) present, never overwriting existing values, all other keys unchanged |
| `ConfigUtil.Lookup` | config_util.py:23-27 | definition only: the value `get_guild_cfg` returns, the stored guild map (or `{}`) with the defaults filled in; its properties are `LookupUnknown`, `FillDefaultsStable` and `SetThenGet` |
| `ConfigUtil.FillDefaults` | config_util.py:24-26 | definition only: `conf` after `get_guild_cfg`, where the defaults are written into the stored map only when the guild is present; its properties are `FillDefaultsOnlyAdds` and `FillDefaultsStable` |
| `ConfigUtil.Assign` | config_util.py:30-32 | definition only: `conf` after `set_guild_cfg`; its properties are `SetThenGet`, `SetFrame` and `SetIdempotent` |
| `ConfigUtil.ConfigStore.constructor` | config_util.py:21 | the store starts with the loaded `conf` |
| `ConfigUtil.ConfigStore.GetGuildCfg` | config_util.py:23-27 | returns the stored guild map with the defaults filled in; `conf` gains those defaults only when the guild is already stored |
| `ConfigUtil.ConfigStore.SetGuildCfg` | config_util.py:29-33 | `conf` becomes the old `conf` with exactly one key of one guild assigned |
| `ConfigUtil.LookupUnknown` | config_util.py:23-27 | for a guild absent from `conf`: the result is exactly `{cooldown_sec: 300, target_vc_ids: []}`, and `conf` is left unchanged |
| `ConfigUtil.FillDefaultsOnlyAdds` | config_util.py:24-27 | filling defaults changes only the looked-up guild's entry, and within it adds keys without changing existing ones |
| `ConfigUtil.DefaultedIdempotent` | config_util.py:25-26 | filling the defaults twice is the same as filling them once |
| `ConfigUtil.FillDefaultsStable` | config_util.py:23-27 | a `get_guild_cfg` call does not change what a later `get_guild_cfg` returns, for the same guild or any other |
| `ConfigUtil.OtherGuildOtherKey` | config_util.py:24 | distinct guild ids are stored under distinct `conf` keys |
| `ConfigUtil.SetThenGet` | config_util.py:29-32 | after `set_guild_cfg(g, k, v)`, `get_guild_cfg(g)` holds `k` with value `v`, the default keys included |
| `ConfigUtil.SetFrame` | config_util.py:29-32 | `set_guild_cfg(g, k, v)` leaves every other guild and every other key of `g` unchanged |
| `ConfigUtil.SetIdempotent` | config_util.py:29-32 | applying the same `set_guild_cfg` twice gives the same `conf` as applying it once |
| `Cooldown.Grants` | bot.py:46-47 | definition only: the grant test `now - last >= cooldown_sec`, a missing key read as `0.0`; its properties are `CooldownWindow` and the lemmas over call sequences |
| `Cooldown.LastNotice` | bot.py:46 | definition only: `last_notice_at.get(key, 0.0)`; `Acquire`, `OtherKeysUnaffected` and `NoGrantWithinCooldown` state how it changes |
| `Cooldown.Acquire` | bot.py:44-50 | a refused check leaves the map unchanged; a granted one sets the `(gid, vcid)` entry to `now`, and every other key's last notice time is kept |
| `Cooldown.CooldownTracker.constructor` | bot.py:38 | `last_notice_at` starts empty |
| `Cooldown.CooldownTracker.CanNotify` | bot.py:44-50 | grants exactly when `now - last >= cooldown_sec` (a missing key counts as `0.0`), and updates `last_notice_at` as `Acquire` says |
| `Cooldown.CooldownWindow` | bot.py:45-49 | after a grant at `t`, a call on the same key at `t + delta` is refused exactly when `delta < cooldown` |
| `Cooldown.OtherKeysUnaffected` | bot.py:45-49 | over any sequence of calls on other keys, a key's last notice time and its next decision do not change |
| `Cooldown.NoGrantWithinCooldown` | bot.py:45-49 | calls on one key with one cooldown, all before its last notice time plus the cooldown, are all refused and leave the map unchanged |
| `Cooldown.Run` | bot.py:44-50 | definition only: `last_notice_at` after a sequence of `can_notify` calls, each as `Acquire`; `OtherKeysUnaffected` and `NoGrantWithinCooldown` are stated over it |
| `Cooldown.AtMostOneGrantPerWindow` | bot.py:44-49 | within any window shorter than the cooldown, at most one call per key is granted |
| `Cooldown.SimultaneousCallsGrantOnce` | bot.py:44-49 | of several calls for one key at the same instant with a positive cooldown, the first of them due, exactly one is granted |
| `Webhook.RetryHint` | bot.py:59-65 | definition only: `ra` is the body's `retry_after` when the content type contains `application/json` and the body decodes, otherwise `0.0`; `Dispatch` retries exactly when it is positive |
| `Webhook.Is2xx` | bot.py:56 | definition only: `200 <= status < 300`; `Dispatch` says success is exactly a 2xx last reply |
| `Webhook.RetryDue` | bot.py:58-66 | definition only: a 429 first reply whose `RetryHint` is positive; `Dispatch` says a second POST happens exactly then |
| `Webhook.FaultReason` | bot.py:73-76 | definition only: `"timeout"` for a timeout, else the exception's text; `Dispatch` pins where it is used |
| `Webhook.Min` | bot.py:67 | definition only: `min(ra, 5)`; `Dispatch` and `RateLimitedThenDelivered` state the wait it gives |
| `Webhook.Dispatch` | bot.py:52-76 | one or two POSTs. Two exactly on a 429 whose JSON `retry_after` is positive, after a wait of `min(retry_after, 5)`. Success exactly when the last POST was 2xx. Otherwise the reason is `"HTTP n"`, `"HTTP n after retry"`, `"timeout"`, or the fault's own text for a fault on either POST |
| `Webhook.PostWebhook` | bot.py:52-76 | the step-by-step sending procedure produces what `Dispatch` specifies |
| `Webhook.RateLimitedThenDelivered` | bot.py:58-70 | a 429 with a positive JSON hint followed by a 2xx retry is delivered after two POSTs and a wait of `min(hint, 5)` |
| `Webhook.GivesUpAfterOneRetry` | bot.py:58-71 | a 429 answered by another 429 fails with `"HTTP 429 after retry"` after two POSTs |
| `Notify.VcIsTarget` | bot.py:40-42 | a falsy target list admits every channel; a list of ids admits exactly its members |
| `Notify.ScanDigits` | bot.py:42 | for a string of digits, `x in map(int, s)` is whether some digit equals `x` |
| `Notify.HumanCount` | bot.py:89-90 | `len(humans)` is the number of members whose `bot` flag is false. It is 0 exactly when every member is a bot, and 1 exactly when one member is human and all others are bots |
| `Notify.Mention` | bot.py:102-104 | `@here` when `ping_role_id` is falsy. Otherwise it raises exactly when `int(ping_role_id)` raises (a text that is not an optional sign and digits, or a list), and else gives `<@&id>` with `id` that integer |
| `Notify.StampRoundTrip` | bot.py:116 | a `<t:ts:style>` token decodes back to `ts` and its style |
| `Notify.Compose` | bot.py:106-126 | definition only: the payload dict; `ComposeShape`, `PostedPayload` and `TimeFieldSameInstant` state its content |
| `Notify.ComposeShape` | bot.py:106-126 | the payload's shape. Content is the fixed greeting plus the mention. There is one embed, titled 通話開始, with the colour in 0..0xFFFFFF and exactly three inline fields in the order channel, starter, start time. The avatar is the thumbnail, the footer is 通話通知くん, and the allowed mentions are roles, everyone and users |
| `Notify.TimeFieldSameInstant` | bot.py:116 | the start-time field splits at its first line break into a date token and a time token, and both decode to the same `ts` |
| `Notify.StampHasNoNewline` | bot.py:116 | a `<t:ts:style>` token holds no line break, so the field's first line is exactly the date token |
| `Notify.Stamp` | bot.py:116 | definition only: the token `<t:ts:style>`; `StampRoundTrip` states that it decodes back |
| `Notify.TimeFieldValue` | bot.py:116 | definition only: the start-time field's value; `TimeFieldSameInstant` states its content |
| `Notify.IsJoin` | bot.py:82 | definition only: `before.channel is None and after.channel is not None`; it is the first guard of the handler's eligibility test, which `CooldownOnlyAfterGuards` and `PostedOnlyWhenEligible` use |
| `Notify.Eligible` | bot.py:82-96 | definition only: the four guards before the cooldown (a join, a target channel, exactly one human, a webhook set); `CooldownOnlyAfterGuards`, `PostedOnlyWhenEligible`, `EligibleJoinMeetsCooldown` and `SecondJoinAndCooldown` are stated with it |
| `Notify.CooldownOf` | bot.py:98 | definition only: `int(gcfg.get("cooldown_sec", 300))`; `CooldownOnlyAfterGuards`, `PostedOnlyWhenEligible` and `EligibleJoinMeetsCooldown` state the handler's use of it |
| `Notify.Handle` | bot.py:82-131 | definition only: the guard chain, returning the outcome with the `conf` and `last_notice_at` it leaves. Its properties are `CooldownOnlyAfterGuards`, `PostedOnlyWhenEligible`, `PostedPayload`, `EligibleJoinMeetsCooldown` and `SecondJoinAndCooldown` |
| `Notify.Announce` | bot.py:102-127 | after the cooldown grant, the handler raises exactly when the role id cannot be converted, and otherwise posts |
| `Notify.OnVoiceStateUpdate` | bot.py:80-131 | the handler's outcome, and the `conf` and `last_notice_at` it leaves, are those of the guard chain `Handle` |
| `Notify.CooldownOnlyAfterGuards` | bot.py:82-100 | `last_notice_at` changes only for a join on a target channel with exactly one human and a webhook set; such a join updates it as `can_notify` does |
| `Notify.PostedOnlyWhenEligible` | bot.py:82-100 | a notification is posted only for an eligible join whose cooldown was granted |
| `Notify.PostedPayload` | bot.py:102-127 | a posted payload is composed from the channel mention, the member's display name and avatar, the configured mention, `ts` and the colour. It counts as delivered exactly when the dispatcher succeeded |
| `Notify.EligibleJoinMeetsCooldown` | bot.py:98-100 | an eligible join is held back exactly when `can_notify` refuses it, and otherwise goes on to `Announce` (posted unless the role id fails to convert). The tracker is updated as `can_notify` says |
| `Notify.SecondJoinAndCooldown` | bot.py:98-100 | two eligible joins on one channel at `t` and `t + delta`, the first one granted: the second is held back exactly when `delta` is less than the cooldown, and otherwise is announced as the first was |
| `Notify.RoleMentionScenario` | bot.py:102-104 | with role 42 configured and a 200 reply, the first human's join is delivered with content ending `<@&42>` after one POST |
| `Notify.BotJoinIsAnnounced` | bot.py:89-91 | a bot joining a channel where exactly one human already is passes every guard and is named as the starter |
| `PyText.IsSpace` | ui_views/settings_view.py:69 | definition only: the characters `str.isspace` accepts, which `str.strip()` drops; `StripLeft`, `StripRight` and `Strip` state its use |
| `PyText.StripLeft` | ui_views/settings_view.py:69 | drops a whitespace prefix and nothing else; the result is a suffix not starting with whitespace |
| `PyText.StripRight` | ui_views/settings_view.py:69 | drops a whitespace suffix and nothing else; the result is a prefix not ending with whitespace |
| `PyText.Strip` | ui_views/settings_view.py:69 | the result is a slice `s[i..j]` of the input. Everything before `i` and from `j` on is whitespace, and the result neither starts nor ends with whitespace. That fixes the result uniquely |
| `PyText.Contains` | bot.py:61 | definition only: `p in s` for strings; `ContainsAt`, `ContainsNowhere` and `ContainsFound` characterise it |
| `PyText.ContainsAt` | bot.py:61 | an occurrence of the pattern at any offset makes `in` true |
| `PyText.ContainsNowhere` | bot.py:61 | a pattern that occurs at no offset makes `in` false |
| `PyText.ContainsFound` | bot.py:61 | `in` is true only when the pattern occurs at some offset; with `ContainsAt` this is the full "iff" |
| `PyText.NatToString` | bot.py:104 | `str(n)` is all digits, denotes `n` and has no leading zero |
| `PyText.IntToString` | config_util.py:24 | `str(n)` has no surrounding whitespace. For `n >= 0` it is digits denoting `n`; for `n < 0` it is `-` followed by digits denoting `-n`. The digits have no leading zero |
| `PyText.StartsWith` | ui_views/settings_view.py:70 | definition only: `str.startswith`; `AcceptsWebhookUrl` and `ContainsFound` use it |
| `PyText.ParseInt` | ui_views/settings_view.py:105 | `int(text)` succeeds exactly when the text holds no ASCII separator (U+001C..U+001F) and the stripped text is one optional sign followed by one or more ASCII digits. The value is the digits' value, negated after `-` |
| `PyText.ParseIntToString` | ui_views/settings_view.py:91 | `int(str(n)) == n` for every integer |
| `PyText.IntToStringInjective` | config_util.py:24 | distinct guild ids give distinct `conf` keys |
| `PyText.IntToStringHead` | ui_views/settings_view.py:87 | `str(n)` starts with a digit or `-`, so it is never `"none"` |
| `PyText.Join` | ui_views/settings_view.py:48 | `", ".join` of one part is that part, and of no parts is empty |
| `PyText.JoinAppend` | ui_views/settings_view.py:48 | joining one more part appends the separator and that part, which fixes `join` for any number of parts |
| `SettingsView.MentionableRoles` | ui_views/settings_view.py:19-20 | exactly the roles that are neither the default role nor named `@everyone` |
| `SettingsView.MentionableRolesAppend` | ui_views/settings_view.py:19-20 | the filter keeps guild order |
| `SettingsView.RoleOptions` | ui_views/settings_view.py:18-21 | the option list is the `@here` option (value `"none"`) then one option per mentionable role, in guild order |
| `SettingsView.Mentionable` | ui_views/settings_view.py:20 | definition only: the role filter; `MentionableRoles` states it |
| `SettingsView.RoleOption` | ui_views/settings_view.py:21 | definition only: the option labelled with the role's name and valued `str(r.id)`; `OptionsChooseTheirRole` states its value |
| `SettingsView.OptionsFor` | ui_views/settings_view.py:18-21 | definition only: the option list; `RoleOptions` and `OptionsForAppend` state its content |
| `SettingsView.OptionsForAppend` | ui_views/settings_view.py:19-21 | one more guild role adds its option at the end exactly when it is mentionable |
| `SettingsView.RoleChoice` | ui_views/settings_view.py:87-91 | `"none"` chooses `None`. Any other value chooses `int(val)`, and raises exactly when that text holds an ASCII separator or, stripped, is not an optional sign followed by digits |
| `SettingsView.OptionsChooseTheirRole` | ui_views/settings_view.py:85-91 | choosing the first option stores `None`, and choosing any other stores its role's id |
| `SettingsView.ChoiceOfRoleId` | ui_views/settings_view.py:21 | the value `str(r.id)` of a role's option chooses exactly that role's id |
| `SettingsView.RoleSelectCallback` | ui_views/settings_view.py:85-91 | `"none"` stores `None` and anything else stores `int(val)`. The config is unchanged where that conversion raises |
| `SettingsView.AcceptsWebhookUrl` | ui_views/settings_view.py:69-70 | definition only: the stripped text starts with the webhook prefix; `WebhookModalSubmit` and `AcceptedWebhookIsConfigured` use it |
| `SettingsView.WebhookModalSubmit` | ui_views/settings_view.py:68-73 | stores the stripped URL exactly when it starts with the webhook prefix; otherwise the config is unchanged |
| `SettingsView.AcceptedWebhookIsConfigured` | ui_views/settings_view.py:68-72 | an accepted URL is read back stripped and prefixed, and passes the handler's webhook guard |
| `SettingsView.ParseCooldown` | ui_views/settings_view.py:104-109 | accepts `int(text.strip())` exactly when it parses and lies in 0..86400 |
| `SettingsView.ParseCooldownOfNumber` | ui_views/settings_view.py:104-109 | the decimal text of `n` is accepted exactly when `0 <= n <= 86400` |
| `SettingsView.CooldownModalSubmit` | ui_views/settings_view.py:103-111 | stores the parsed cooldown exactly when it is accepted; otherwise the config is unchanged |
| `SettingsView.AcceptedCooldownIsUsed` | ui_views/settings_view.py:110 | an accepted cooldown is the one the handler then reads |
| `SettingsView.Toggled` | ui_views/settings_view.py:128-131 | the new target set is the symmetric difference with `{val}` |
| `SettingsView.ToggleTwice` | ui_views/settings_view.py:127-132 | toggling the same channel twice restores the set |
| `SettingsView.SetToList` | ui_views/settings_view.py:132 | `list(set)` holds each element of the set exactly once |
| `SettingsView.TargetIds` | ui_views/settings_view.py:126-127 | definition only: `map(int, get_guild_cfg(gid).get("target_vc_ids", []))`; `VcSelectCallback` states its use |
| `SettingsView.VcSelectCallback` | ui_views/settings_view.py:123-132 | writes a duplicate-free list whose elements are the old targets toggled by the selected id, and changes nothing else. The config is unchanged where `int()` raises, and only the defaults are filled where reading the targets raises |
| `SettingsView.ReselectRestoresTargets` | ui_views/settings_view.py:127-132 | selecting the same channel twice leaves the target set as it was |
| `SettingsView.RoleText` | ui_views/settings_view.py:44 | definition only: `<@&role>` for a truthy role, else `@here`; `StatusRoleMatchesNotification` relates it to the notification |
| `SettingsView.ChannelName` | ui_views/settings_view.py:47 | definition only: the channel's name, or `(不明:id)` for an id the guild does not know; `AllChannelsOnlyWhenNoTargets` uses it |
| `SettingsView.StatusOf` | ui_views/settings_view.py:41-48 | the webhook shows as registered exactly when `webhook_url` is truthy. The role text is `<@&id>` or `@here`. An empty target list shows `全VC対象` |
| `SettingsView.AllChannelsOnlyWhenNoTargets` | ui_views/settings_view.py:47-48 | a non-empty target list never shows `全VC対象`, unless a channel is itself so named |
| `SettingsView.StatusRoleMatchesNotification` | ui_views/settings_view.py:43-44 | for every value the role menu stores, the status shows the mention the notification uses |

## Left out

- `load_config` and `save_config`: file I/O and the JSON format. `conf` is an in-memory map. Saving has no effect on it.
- Config values other than null, ints, strings and lists of ints: floats, booleans and objects. Only a hand-edited `config.json` could hold these.
- `ConfigUtil.ConfigStore.GetGuildCfg`: it returns the per-guild map as a value. Python returns the stored dict object itself. No caller mutates it afterwards, so no behaviour is lost.
- `PyText.ParseInt`: it accepts ASCII digits only. Python's `int()` also accepts underscores between digits and non-ASCII decimal digits.
- `ConfigUtil.PyIterInts` and `Notify.ScanDigits`: for a string stored where a list of ids is expected, they reject every character that is not an ASCII digit. Python's per-character `int()` also accepts non-ASCII decimal digits (ui_views/settings_view.py:47 and 127, bot.py:42).
- `Cooldown.Grants`: times are reals, so the floating-point rounding of `now - last >= cooldown_sec` (bot.py:47) is not modelled.
- `SettingsView.StatusOf`: it takes the guild config as an input. The `get_guild_cfg` call at ui_views/settings_view.py:41, and the defaults it writes into `conf`, are not modelled there; `ConfigStore.GetGuildCfg` models that call elsewhere.
- The Discord client: setup, intents, token, `/setup`, `on_ready`, `admin_only`, and `bot_hello_only.py`.
- Discord UI calls and name lookups are inputs or are left out. This covers modals, views, replies and their texts, `get_role`, and the channel name in `VCSelect`'s reply. The option list of `set_vc_button` is left out too.
- The aiohttp transport and the real `asyncio.sleep`. The two replies are inputs, and the wait is reported as a number of seconds.
- JSON bodies that fail to parse are treated like a missing `retry_after`, which is what the code does. NaN and infinite hints are not modelled.
- `time.time()` and `random.randint` are inputs. The relation between the two clock readings `now` and `ts` is not modelled.
- Async interleaving of handlers. `can_notify` has no `await` between its check and its set, so each call is one atomic step. A sequence of calls is modelled by `Cooldown.Run`.
- Logging: the handler returns an outcome instead of writing to the log.

=== FILE: config_util.dfy ===
/** The in-memory configuration store of config_util.py: a map from the
    decimal text of a guild id to that guild's settings dict. Loading from
    and saving to config.json are not part of this model. */
module ConfigUtil {
  import opened Wrappers
  import opened PyText

  const DefaultCooldownSec: int := 300

  const CooldownKey: string := "cooldown_sec"
  const TargetKey: string := "target_vc_ids"
  const WebhookKey: string := "webhook_url"
  const RoleKey: string := "ping_role_id"

  /** The JSON values the program stores: `None`, integers, strings and
      lists of integer ids. */
  datatype Value = Null | Int(n: int) | Str(s: string) | IdList(ids: seq<int>)

  /** One guild's settings dict. */
  type GuildCfg = map<string, Value>

  /** The module-level `conf` dict, keyed by `str(gid)`. */
  type Conf = map<string, GuildCfg>

  /** Python truthiness: `None`, `0`, `""` and `[]` are false. */
  predicate Truthy(v: Value) {
    match v
    case Null => false
    case Int(n) => n != 0
    case Str(s) => s != ""
    case IdList(ids) => ids != []
  }

  /** Python's `int(v)`; `None` where Python raises. Text converts as
      `int()` reads it (see `ParseInt`). */
  function PyInt(v: Value): (r: Option<int>)
    ensures v.Int? ==> r == Some(v.n)
    ensures v.Str? ==> r == ParseInt(v.s)
    ensures v.Str? ==> (r.Some? <==> NoSeparator(v.s) && IsIntText(Strip(v.s)))
    ensures v.Null? || v.IdList? ==> r == None
  {
    match v
    case Int(n) => Some(n)
    case Str(s) => ParseInt(s)
    case _ => None
  }

  /** Python's `str(v)` (an f-string placeholder); a list prints as `[1, 2]`. */
  function PyStr(v: Value): string {
    match v
    case Null => "None"
    case Int(n) => IntToString(n)
    case Str(s) => s
    case IdList(ids) => "[" + Join(", ", seq(|ids|, i requires 0 <= i < |ids| => IntToString(ids[i]))) + "]"
  }

  /** The integers Python produces by iterating `v` and applying `int` to each
      item (`map(int, v)` run to the end): the ids of a list, the digits of a
      string of digits; `None` where Python raises. */
  function PyIterInts(v: Value): (r: Option<seq<int>>)
    ensures v.IdList? ==> r == Some(v.ids)
    ensures v.Str? ==> (r.Some? <==> AllDigits(v.s))
    ensures v.Str? && r.Some? ==>
      |r.value| == |v.s| && forall i :: 0 <= i < |v.s| ==> r.value[i] == DigitValue(v.s[i])
    ensures v.Null? || v.Int? ==> r == None
  {
    match v
    case IdList(ids) => Some(ids)
    case Str(s) =>
      if AllDigits(s) then Some(seq(|s|, i requires 0 <= i < |s| => DigitValue(s[i]) as int)) else None
    case _ => None
  }

  /** `d.get(key)`: absent keys read as `None`. */
  function Get(g: GuildCfg, key: string): Value {
    if key in g then g[key] else Null
  }

  /** `d.get(key, default)`. */
  function GetOr(g: GuildCfg, key: string, default: Value): Value {
    if key in g then g[key] else default
  }

  /** `d.setdefault(key, v)`, as the dict it leaves behind. */
  function SetDefault(g: GuildCfg, key: string, v: Value): (r: GuildCfg)
    ensures r.Keys == g.Keys + {key}
    ensures forall k :: k in g ==> r[k] == g[k]
    ensures key !in g ==> r[key] == v
  {
    if key in g then g else g[key := v]
  }

  /** A guild dict after the two `setdefault` calls of `get_guild_cfg`:
      missing defaults are added and nothing already present is overwritten. */
  function Defaulted(g: GuildCfg): (r: GuildCfg)
    ensures r.Keys == g.Keys + {CooldownKey, TargetKey}
    ensures forall k :: k in g ==> r[k] == g[k]
    ensures CooldownKey !in g ==> r[CooldownKey] == Int(DefaultCooldownSec)
    ensures TargetKey !in g ==> r[TargetKey] == IdList([])
  {
    SetDefault(SetDefault(g, CooldownKey, Int(DefaultCooldownSec)), TargetKey, IdList([]))
  }

  /** `conf.get(str(gid), {})`. */
  function Stored(conf: Conf, gid: int): GuildCfg {
    var key := IntToString(gid);
    if key in conf then conf[key] else map[]
  }

  /** The dict `get_guild_cfg(gid)` returns. */
  function Lookup(conf: Conf, gid: int): GuildCfg {
    Defaulted(Stored(conf, gid))
  }

  /** `conf` after `get_guild_cfg(gid)`: the stored dict of a known guild gets
      the defaults in place; an unknown guild is not inserted. */
  function FillDefaults(conf: Conf, gid: int): Conf {
    var key := IntToString(gid);
    if key in conf then conf[key := Defaulted(conf[key])] else conf
  }

  /** `conf` after `set_guild_cfg(gid, key, val)`. */
  function Assign(conf: Conf, gid: int, key: string, val: Value): Conf {
    conf[IntToString(gid) := Stored(conf, gid)[key := val]]
  }

  /** The store itself: `conf` is updated in place by both accessors. */
  class ConfigStore {
    var conf: Conf

    constructor (loaded: Conf)
      ensures conf == loaded
    {
      conf := loaded;
    }

    /** `get_guild_cfg`: returns the guild's dict with defaults filled in. */
    method GetGuildCfg(gid: int) returns (g: GuildCfg)
      modifies this
      ensures g == Lookup(old(conf), gid)
      ensures conf == FillDefaults(old(conf), gid)
    {
      var key := IntToString(gid);
      g := if key in conf then conf[key] else map[];
      g := SetDefault(g, CooldownKey, Int(DefaultCooldownSec));
      g := SetDefault(g, TargetKey, IdList([]));
      if key in conf {
        conf := conf[key := g];
      }
    }

    /** `set_guild_cfg`: one key of one guild's stored dict is assigned. */
    method SetGuildCfg(gid: int, key: string, val: Value)
      modifies this
      ensures conf == Assign(old(conf), gid, key, val)
    {
      var d := if IntToString(gid) in conf then conf[IntToString(gid)] else map[];
      d := d[key := val];
      conf := conf[IntToString(gid) := d];
    }
  }

  /** An unknown guild reads as the defaults alone, and reading it does not
      insert it. */
  lemma LookupUnknown(conf: Conf, gid: int)
    requires IntToString(gid) !in conf
    ensures Lookup(conf, gid) == map[CooldownKey := Int(DefaultCooldownSec), TargetKey := IdList([])]
    ensures FillDefaults(conf, gid) == conf
  {
    var r := Lookup(conf, gid);
    assert r.Keys == {CooldownKey, TargetKey};
  }

  /** Reading a guild changes no guild's key set other than by adding the two
      defaults to that guild, and changes no value already stored. */
  lemma FillDefaultsOnlyAdds(conf: Conf, gid: int)
    ensures FillDefaults(conf, gid).Keys == conf.Keys
    ensures forall k :: k in conf && k != IntToString(gid) ==> FillDefaults(conf, gid)[k] == conf[k]
    ensures IntToString(gid) in conf ==>
      && FillDefaults(conf, gid)[IntToString(gid)].Keys == conf[IntToString(gid)].Keys + {CooldownKey, TargetKey}
      && forall k :: k in conf[IntToString(gid)] ==> FillDefaults(conf, gid)[IntToString(gid)][k] == conf[IntToString(gid)][k]
  {
  }

  /** Filling in defaults is idempotent, so reading twice is reading once. */
  lemma {:induction false} DefaultedIdempotent(g: GuildCfg)
    ensures Defaulted(Defaulted(g)) == Defaulted(g)
  {
    var once := Defaulted(g);
    var twice := Defaulted(once);
    assert twice.Keys == once.Keys;
    assert forall k :: k in once ==> twice[k] == once[k];
  }

  /** After a read, every guild looks the same as before and a second read
      changes nothing more. */
  lemma FillDefaultsStable(conf: Conf, gid: int, other: int)
    ensures Lookup(FillDefaults(conf, gid), other) == Lookup(conf, other)
    ensures FillDefaults(FillDefaults(conf, gid), gid) == FillDefaults(conf, gid)
  {
    DefaultedIdempotent(Stored(conf, gid));
    if other != gid {
      FillElsewhere(conf, gid, other);
    }
  }

  /** `get_guild_cfg(gid)` does not touch what another guild has stored. */
  lemma FillElsewhere(conf: Conf, gid: int, other: int)
    requires other != gid
    ensures Stored(FillDefaults(conf, gid), other) == Stored(conf, other)
  {
    OtherGuildOtherKey(gid, other);
  }

  /** Distinct guilds are stored under distinct keys. */
  lemma OtherGuildOtherKey(gid: int, other: int)
    requires other != gid
    ensures IntToString(other) != IntToString(gid)
  {
    if IntToString(other) == IntToString(gid) {
      IntToStringInjective(other, gid);
    }
  }

  /** `get_guild_cfg(g)[k] == v` right after `set_guild_cfg(g, k, v)`. */
  lemma SetThenGet(conf: Conf, gid: int, key: string, val: Value)
    ensures key in Lookup(Assign(conf, gid, key, val), gid)
    ensures Lookup(Assign(conf, gid, key, val), gid)[key] == val
  {
  }

  /** `set_guild_cfg` leaves every other guild as it was, and every other key
      of the same guild reads as before. */
  lemma SetFrame(conf: Conf, gid: int, key: string, val: Value)
    ensures forall other :: other != gid ==> Lookup(Assign(conf, gid, key, val), other) == Lookup(conf, other)
    ensures forall k :: k != key ==>
      (k in Lookup(Assign(conf, gid, key, val), gid) <==> k in Lookup(conf, gid))
    ensures forall k :: k != key && k in Lookup(conf, gid) ==>
      Lookup(Assign(conf, gid, key, val), gid)[k] == Lookup(conf, gid)[k]
  {
    forall other | other != gid
      ensures Lookup(Assign(conf, gid, key, val), other) == Lookup(conf, other)
    {
      AssignElsewhere(conf, gid, key, val, other);
    }
    AssignHere(conf, gid, key, val);
    DefaultedUpdate(Stored(conf, gid), key, val);
  }

  /** `set_guild_cfg(gid, key, val)` stores the old guild dict with `key` set. */
  lemma AssignHere(conf: Conf, gid: int, key: string, val: Value)
    ensures Stored(Assign(conf, gid, key, val), gid) == Stored(conf, gid)[key := val]
  {
  }

  /** Setting one key before filling the defaults leaves every other key of
      the filled dict as it was. */
  lemma DefaultedUpdate(g: GuildCfg, key: string, val: Value)
    ensures forall k :: k != key ==> (k in Defaulted(g[key := val]) <==> k in Defaulted(g))
    ensures forall k :: k != key && k in Defaulted(g) ==> Defaulted(g[key := val])[k] == Defaulted(g)[k]
  {
  }

  /** `set_guild_cfg(gid, ...)` does not touch what another guild has stored. */
  lemma AssignElsewhere(conf: Conf, gid: int, key: string, val: Value, other: int)
    requires other != gid
    ensures Stored(Assign(conf, gid, key, val), other) == Stored(conf, other)
  {
    OtherGuildOtherKey(gid, other);
  }

  /** Setting the same key to the same value twice is setting it once. */
  lemma SetIdempotent(conf: Conf, gid: int, key: string, val: Value)
    ensures Assign(Assign(conf, gid, key, val), gid, key, val) == Assign(conf, gid, key, val)
  {
    var once := Assign(conf, gid, key, val);
    assert Stored(once, gid) == Stored(conf, gid)[key := val];
    assert Stored(once, gid)[key := val] == Stored(once, gid);
  }
}

=== FILE: cooldown.dfy ===
/** The cooldown tracker of bot.py: `last_notice_at`, a map from
    (guild id, channel id) to the clock reading of the last granted
    notification, and `can_notify`, its check-and-set. */
module Cooldown {
  /** (guild id, voice channel id) */
  type Key = (int, int)

  /** `last_notice_at.get(key, 0.0)`: a key never granted reads as time 0. */
  function LastNotice(m: map<Key, real>, k: Key): real {
    if k in m then m[k] else 0.0
  }

  /** The test of `can_notify`: at least `cooldownSec` seconds since the last grant. */
  predicate Grants(m: map<Key, real>, k: Key, cooldownSec: int, now: real) {
    now - LastNotice(m, k) >= cooldownSec as real
  }

  /** `last_notice_at` after one `can_notify` call. A grant records `now` for
      that key alone; a refusal changes nothing. */
  function Acquire(m: map<Key, real>, k: Key, cooldownSec: int, now: real): (r: map<Key, real>)
    ensures !Grants(m, k, cooldownSec, now) ==> r == m
    ensures Grants(m, k, cooldownSec, now) ==> k in r && r[k] == now && r.Keys == m.Keys + {k}
    ensures forall j :: j != k ==> LastNotice(r, j) == LastNotice(m, j)
  {
    if Grants(m, k, cooldownSec, now) then m[k := now] else m
  }

  class CooldownTracker {
    var lastNoticeAt: map<Key, real>

    /** The tracker starts empty when the process starts. */
    constructor ()
      ensures lastNoticeAt == map[]
    {
      lastNoticeAt := map[];
    }

    /** `can_notify(gid, vcid, cooldown_sec)` with the clock reading `now`
        passed in; check and set happen in one step. */
    method CanNotify(gid: int, vcid: int, cooldownSec: int, now: real) returns (granted: bool)
      modifies this
      ensures granted == Grants(old(lastNoticeAt), (gid, vcid), cooldownSec, now)
      ensures lastNoticeAt == Acquire(old(lastNoticeAt), (gid, vcid), cooldownSec, now)
    {
      var key := (gid, vcid);
      var last := if key in lastNoticeAt then lastNoticeAt[key] else 0.0;
      if now - last >= cooldownSec as real {
        lastNoticeAt := lastNoticeAt[key := now];
        return true;
      }
      return false;
    }
  }

  /** After a grant at `t`, the same key is granted again at `t + delta`
      exactly when `delta` is at least the cooldown. */
  lemma CooldownWindow(m: map<Key, real>, k: Key, cooldownSec: int, t: real, delta: real)
    requires Grants(m, k, cooldownSec, t)
    ensures Grants(Acquire(m, k, cooldownSec, t), k, cooldownSec, t + delta) <==> delta >= cooldownSec as real
  {
  }

  /** One `can_notify` call, as a record, for reasoning about call sequences. */
  datatype Call = Call(key: Key, cooldownSec: int, now: real)

  /** The tracker after a sequence of calls made one after another. */
  function Run(m: map<Key, real>, calls: seq<Call>): map<Key, real>
    decreases |calls|
  {
    if calls == [] then m
    else Run(Acquire(m, calls[0].key, calls[0].cooldownSec, calls[0].now), calls[1..])
  }

  /** How many of those calls were granted. */
  function GrantCount(m: map<Key, real>, calls: seq<Call>): nat
    decreases |calls|
  {
    if calls == [] then 0
    else
      var c := calls[0];
      (if Grants(m, c.key, c.cooldownSec, c.now) then 1 else 0)
        + GrantCount(Acquire(m, c.key, c.cooldownSec, c.now), calls[1..])
  }

  /** Calls on other keys neither change a key's last notice time nor its
      next decision. */
  lemma {:induction false} OtherKeysUnaffected(m: map<Key, real>, calls: seq<Call>, k: Key)
    requires forall i :: 0 <= i < |calls| ==> calls[i].key != k
    ensures LastNotice(Run(m, calls), k) == LastNotice(m, k)
    ensures forall c: int, now: real :: Grants(Run(m, calls), k, c, now) <==> Grants(m, k, c, now)
    decreases |calls|
  {
    if calls != [] {
      var c := calls[0];
      OtherKeysUnaffected(Acquire(m, c.key, c.cooldownSec, c.now), calls[1..], k);
    }
  }

  /** Once a key was granted at `t0`, calls on it before `t0 + cooldownSec`
      are all refused and leave the tracker as it is. */
  lemma {:induction false} NoGrantWithinCooldown(m: map<Key, real>, calls: seq<Call>, k: Key, cooldownSec: int)
    requires forall i :: 0 <= i < |calls| ==> calls[i].key == k && calls[i].cooldownSec == cooldownSec
    requires forall i :: 0 <= i < |calls| ==> calls[i].now < LastNotice(m, k) + cooldownSec as real
    ensures GrantCount(m, calls) == 0
    ensures Run(m, calls) == m
    decreases |calls|
  {
    if calls != [] {
      var c := calls[0];
      assert !Grants(m, c.key, c.cooldownSec, c.now);
      NoGrantWithinCooldown(m, calls[1..], k, cooldownSec);
    }
  }

  /** Any number of calls on one key whose clock readings all fall within a
      window shorter than the cooldown (in any order) get at most one grant. */
  lemma {:induction false} AtMostOneGrantPerWindow(m: map<Key, real>, calls: seq<Call>, k: Key, cooldownSec: int, lo: real)
    requires forall i :: 0 <= i < |calls| ==> calls[i].key == k && calls[i].cooldownSec == cooldownSec
    requires forall i :: 0 <= i < |calls| ==> lo <= calls[i].now < lo + cooldownSec as real
    ensures GrantCount(m, calls) <= 1
    decreases |calls|
  {
    if calls != [] {
      var c := calls[0];
      var m' := Acquire(m, c.key, c.cooldownSec, c.now);
      if Grants(m, c.key, c.cooldownSec, c.now) {
        NoGrantWithinCooldown(m', calls[1..], k, cooldownSec);
      } else {
        AtMostOneGrantPerWindow(m', calls[1..], k, cooldownSec, lo);
      }
    }
  }

  /** Simultaneous calls on one key with a positive cooldown, the first of
      which is due: exactly one is granted. */
  lemma SimultaneousCallsGrantOnce(m: map<Key, real>, calls: seq<Call>, k: Key, cooldownSec: int, now: real)
    requires |calls| > 0 && cooldownSec > 0
    requires forall i :: 0 <= i < |calls| ==> calls[i] == Call(k, cooldownSec, now)
    requires Grants(m, k, cooldownSec, now)
    ensures GrantCount(m, calls) == 1
  {
    NoGrantWithinCooldown(Acquire(m, k, cooldownSec, now), calls[1..], k, cooldownSec);
  }
}

=== FILE: notify.dfy ===
/** The join-notification engine of bot.py: the target-channel test, the
    payload built for a notification, and `on_voice_state_update`, a chain of
    early-return guards ending with the cooldown check and the webhook POST. */
module Notify {
  import opened Wrappers
  import opened PyText
  import opened ConfigUtil
  import opened Cooldown
  import opened Webhook

  const MaxColor: int := 0xFFFFFF

  /** `vc_is_target`: `None` where Python raises. An empty (falsy) target
      list admits every channel; otherwise `int(vcid) in map(int, target)`,
      which stops at the first match. */
  function VcIsTarget(cfg: GuildCfg, vcid: int): (r: Option<bool>)
    ensures Get(cfg, TargetKey).IdList? ==>
      r == Some(Get(cfg, TargetKey).ids == [] || vcid in Get(cfg, TargetKey).ids)
    ensures !Truthy(Get(cfg, TargetKey)) ==> r == Some(true)
  {
    var target := Get(cfg, TargetKey);
    if !Truthy(target) then Some(true)
    else
      match target
      case IdList(ids) => Some(vcid in ids)
      case Str(s) => ScanDigits(s, vcid)
      case _ => None
  }

  /** `x in map(int, s)` for a string `s`: characters are converted one by one
      until one equals `x`; a non-digit reached first raises. */
  function ScanDigits(s: string, x: int): (r: Option<bool>)
    ensures AllDigits(s) ==> r == Some(exists i :: 0 <= i < |s| && DigitValue(s[i]) == x)
  {
    if s == [] then Some(false)
    else if !IsDigit(s[0]) then None
    else if DigitValue(s[0]) == x then Some(true)
    else
      var rest := ScanDigits(s[1..], x);
      assert AllDigits(s) ==> forall i :: 1 <= i < |s| ==> s[i] == s[1..][i - 1];
      rest
  }

  /** A member as the handler sees it. */
  datatype Member = Member(isBot: bool, displayName: string, avatarUrl: string)

  /** A voice channel: its id, its mention text and who is in it. */
  datatype Channel = Channel(id: int, mention: string, members: seq<Member>)

  /** One voice-state update: the guild, who moved, and the channel before
      and after (`None` when not in voice). */
  datatype VoiceUpdate = VoiceUpdate(guildId: int, member: Member, before: Option<Channel>, after: Option<Channel>)

  /** `len([m for m in members if not m.bot])` */
  function HumanCount(members: seq<Member>): (n: nat)
    ensures n == multiset(BotFlags(members))[false]
    ensures n == 0 <==> forall i :: 0 <= i < |members| ==> members[i].isBot
    ensures n == 1 <==> exists h :: 0 <= h < |members| && OnlyHuman(members, h)
  {
    if members == [] then 0
    else
      var rest := HumanCount(members[1..]);
      assert BotFlags(members) == [members[0].isBot] + BotFlags(members[1..]);
      assert forall i :: 1 <= i < |members| ==> members[i] == members[1..][i - 1];
      OnlyHumanShift(members);
      (if members[0].isBot then 0 else 1) + rest
  }

  /** The `bot` flag of each member, in order. */
  function BotFlags(members: seq<Member>): seq<bool> {
    seq(|members|, i requires 0 <= i < |members| => members[i].isBot)
  }

  /** Member `h` is human and everyone else is a bot. */
  predicate OnlyHuman(members: seq<Member>, h: int)
    requires 0 <= h < |members|
  {
    !members[h].isBot && forall j :: 0 <= j < |members| && j != h ==> members[j].isBot
  }

  /** How the sole human of a list relates to the sole human of its tail. */
  lemma OnlyHumanShift(members: seq<Member>)
    requires members != []
    ensures (exists h :: 0 <= h < |members| && OnlyHuman(members, h)) <==>
      if members[0].isBot then exists h :: 0 <= h < |members| - 1 && OnlyHuman(members[1..], h)
      else forall j :: 0 <= j < |members| - 1 ==> members[1..][j].isBot
  {
    var tail := members[1..];
    assert forall j :: 1 <= j < |members| ==> members[j] == tail[j - 1];
    if members[0].isBot {
      if exists h :: 0 <= h < |members| && OnlyHuman(members, h) {
        var h :| 0 <= h < |members| && OnlyHuman(members, h);
        assert OnlyHuman(tail, h - 1);
      }
      if exists h :: 0 <= h < |tail| && OnlyHuman(tail, h) {
        var h :| 0 <= h < |tail| && OnlyHuman(tail, h);
        assert OnlyHuman(members, h + 1);
      }
    } else {
      if forall j :: 0 <= j < |tail| ==> tail[j].isBot {
        assert OnlyHuman(members, 0);
      }
      if exists h :: 0 <= h < |members| && OnlyHuman(members, h) {
        var h :| 0 <= h < |members| && OnlyHuman(members, h);
        assert h == 0;
      }
    }
  }

  /** The "not in voice -> in voice" transition. */
  predicate IsJoin(u: VoiceUpdate) {
    u.before.None? && u.after.Some?
  }

  /** The mention text: `@here` unless `ping_role_id` is truthy, then a role
      mention of `int(ping_role_id)`; `None` where that conversion raises. */
  function Mention(role: Value): (r: Option<string>)
    ensures !Truthy(role) ==> r == Some("@here")
    ensures role.Int? && role.n != 0 ==> r == Some("<@&" + IntToString(role.n) + ">")
    ensures Truthy(role) ==> (r.Some? <==> PyInt(role).Some?)
    ensures Truthy(role) && r.Some? ==> r.value == "<@&" + IntToString(PyInt(role).value) + ">"
  {
    if !Truthy(role) then Some("@here")
    else
      match PyInt(role)
      case None => None
      case Some(id) => Some("<@&" + IntToString(id) + ">")
  }

  datatype Field = Field(name: string, value: string, inline: bool)

  datatype Embed = Embed(title: string, color: int, fields: seq<Field>, thumbnailUrl: string, footerText: string)

  datatype Payload = Payload(content: string, embeds: seq<Embed>, allowedMentions: seq<string>)

  const ContentPrefix: string := "誰かがお話し中です♪ "

  /** A Discord timestamp token `<t:ts:style>`. */
  function Stamp(ts: int, style: char): string {
    "<t:" + IntToString(ts) + ":" + [style] + ">"
  }

  /** Reads a `<t:ts:style>` token back. */
  function DecodeStamp(token: string): Option<(int, char)> {
    if |token| >= 6 && token[..3] == "<t:" && token[|token| - 3] == ':' && token[|token| - 1] == '>' then
      match ParseInt(token[3..|token| - 3])
      case None => None
      case Some(ts) => Some((ts, token[|token| - 2]))
    else None
  }

  /** The start-time field value: the date form and the time form of `ts`. */
  function TimeFieldValue(ts: int): string {
    Stamp(ts, 'D') + "\n" + Stamp(ts, 'T')
  }

  /** The payload of bot.py, for given channel mention, starter, avatar,
      mention text, timestamp and colour. */
  function Compose(channelMention: string, starter: string, avatarUrl: string, mention: string, ts: int, color: int): Payload {
    var embed := Embed(
      "通話開始",
      color,
      [ Field("チャンネル", channelMention, true),
        Field("始めた人", starter, true),
        Field("開始時間", TimeFieldValue(ts), true) ],
      avatarUrl,
      "通話通知くん");
    Payload(ContentPrefix + mention, [embed], ["roles", "everyone", "users"])
  }

  /** Where the parts of a `<t:..:style>` token sit. */
  lemma TokenParts(digits: string, style: char, token: string)
    requires token == "<t:" + digits + [':', style, '>']
    ensures |token| == |digits| + 6 && token[..3] == "<t:" && token[3..|token| - 3] == digits
    ensures token[|token| - 3] == ':' && token[|token| - 2] == style && token[|token| - 1] == '>'
  {
  }

  /** Each stamp decodes back to the timestamp it was built from. */
  lemma StampRoundTrip(ts: int, style: char)
    ensures DecodeStamp(Stamp(ts, style)) == Some((ts, style))
  {
    var digits := IntToString(ts);
    var token := Stamp(ts, style);
    TokenParts(digits, style, token);
    ParseIntToString(ts);
    DecodeToken(digits, style, token, ts);
  }

  /** A well-formed token decodes to its parsed digits and its style. */
  lemma DecodeToken(digits: string, style: char, token: string, n: int)
    requires token == "<t:" + digits + [':', style, '>']
    requires |token| == |digits| + 6 && token[..3] == "<t:" && token[3..|token| - 3] == digits
    requires token[|token| - 3] == ':' && token[|token| - 2] == style && token[|token| - 1] == '>'
    requires ParseInt(digits) == Some(n)
    ensures DecodeStamp(token) == Some((n, style))
  {
  }

  /** The payload's shape: the mention line, one embed with exactly three
      inline fields named channel, starter and start time in that order, and
      the colour in range. */
  lemma ComposeShape(channelMention: string, starter: string, avatarUrl: string, mention: string, ts: int, color: int)
    requires 0 <= color <= MaxColor
    ensures var p := Compose(channelMention, starter, avatarUrl, mention, ts, color);
      && p.content == ContentPrefix + mention
      && |p.embeds| == 1
      && 0 <= p.embeds[0].color <= MaxColor
      && |p.embeds[0].fields| == 3
      && (forall i :: 0 <= i < 3 ==> p.embeds[0].fields[i].inline)
      && p.embeds[0].fields[0] == Field("チャンネル", channelMention, true)
      && p.embeds[0].fields[1] == Field("始めた人", starter, true)
      && p.embeds[0].fields[2] == Field("開始時間", TimeFieldValue(ts), true)
      && p.embeds[0].title == "通話開始"
      && p.embeds[0].thumbnailUrl == avatarUrl
      && p.embeds[0].footerText == "通話通知くん"
      && p.allowedMentions == ["roles", "everyone", "users"]
  {
    var p := Compose(channelMention, starter, avatarUrl, mention, ts, color);
    var fields := p.embeds[0].fields;
    assert fields[0].inline && fields[1].inline && fields[2].inline;
  }

  /** Both halves of the time field name the same instant: the first decodes
      to `ts` in date style, the second to `ts` in time style. */
  lemma TimeFieldSameInstant(ts: int)
    ensures exists date, time ::
      && TimeFieldValue(ts) == date + "\n" + time
      && '\n' !in date
      && DecodeStamp(date) == Some((ts, 'D'))
      && DecodeStamp(time) == Some((ts, 'T'))
  {
    StampRoundTrip(ts, 'D');
    StampRoundTrip(ts, 'T');
    StampHasNoNewline(ts, 'D');
  }

  /** A timestamp token is one line: `str(ts)` has only digits and `-`. */
  lemma StampHasNoNewline(ts: int, style: char)
    requires style != '\n'
    ensures '\n' !in Stamp(ts, style)
  {
    var digits := IntToString(ts);
    forall i | 0 <= i < |digits|
      ensures digits[i] != '\n'
    {
      if ts < 0 && i > 0 {
        assert digits[1..][i - 1] == digits[i];
      }
    }
  }

  /** Why a join was ignored, in guard order. */
  datatype Skip = NotAJoin | NotATarget | NotFirstHuman | NoWebhook | CoolingDown

  /** What one call of the handler did. `Raised` is an exception caught and
      logged by the handler. */
  datatype Outcome =
    | Skipped(why: Skip)
    | Raised
    | Delivered(payload: Payload, posts: nat)
    | Undelivered(payload: Payload, err: string, posts: nat)
  {
    predicate Posted() { Delivered? || Undelivered? }
  }

  /** The handler's outcome with the `conf` and `last_notice_at` it leaves. */
  datatype Step = Step(outcome: Outcome, conf: Conf, last: map<Key, real>)

  /** The four guards before the cooldown, as one condition. */
  predicate Eligible(u: VoiceUpdate, cfg: GuildCfg) {
    && IsJoin(u)
    && VcIsTarget(cfg, u.after.value.id) == Some(true)
    && HumanCount(u.after.value.members) == 1
    && Truthy(Get(cfg, WebhookKey))
  }

  /** The cooldown of a guild as the handler reads it. */
  function CooldownOf(cfg: GuildCfg): Option<int> {
    PyInt(GetOr(cfg, CooldownKey, Int(DefaultCooldownSec)))
  }

  /** `on_voice_state_update`, with the clock readings `now` (for the cooldown)
      and `ts` (for the payload), the random colour, and the two POST
      attempts as inputs. */
  function Handle(conf: Conf, last: map<Key, real>, u: VoiceUpdate, now: real, ts: int, color: int,
                  first: Attempt, retry: Attempt): Step
    requires 0 <= color <= MaxColor
  {
    if !IsJoin(u) then Step(Skipped(NotAJoin), conf, last)
    else
      var gid := u.guildId;
      var vc := u.after.value;
      var conf' := FillDefaults(conf, gid);
      var cfg := Lookup(conf, gid);
      match VcIsTarget(cfg, vc.id)
      case None => Step(Raised, conf', last)
      case Some(target) =>
        if !target then Step(Skipped(NotATarget), conf', last)
        else if HumanCount(vc.members) != 1 then Step(Skipped(NotFirstHuman), conf', last)
        else if !Truthy(Get(cfg, WebhookKey)) then Step(Skipped(NoWebhook), conf', last)
        else
          match CooldownOf(cfg)
          case None => Step(Raised, conf', last)
          case Some(cooldown) =>
            if !Grants(last, (gid, vc.id), cooldown, now) then Step(Skipped(CoolingDown), conf', last)
            else Step(Announce(cfg, u, ts, color, first, retry), conf', last[(gid, vc.id) := now])
  }

  /** What happens once the cooldown was granted: the mention is worked out
      (which may raise), the payload composed and posted. */
  function Announce(cfg: GuildCfg, u: VoiceUpdate, ts: int, color: int, first: Attempt, retry: Attempt): (o: Outcome)
    requires IsJoin(u) && 0 <= color <= MaxColor
    ensures o.Raised? <==> Mention(Get(cfg, RoleKey)).None?
    ensures o.Raised? || o.Posted()
  {
    match Mention(Get(cfg, RoleKey))
    case None => Raised
    case Some(mention) =>
      var payload := Compose(u.after.value.mention, u.member.displayName, u.member.avatarUrl, mention, ts, color);
      var d := Dispatch(first, retry);
      if d.ok then Delivered(payload, d.posts) else Undelivered(payload, d.err, d.posts)
  }

  /** The handler itself, over the shared store and tracker. */
  method OnVoiceStateUpdate(store: ConfigStore, tracker: CooldownTracker, u: VoiceUpdate, now: real, ts: int,
                            color: int, first: Attempt, retry: Attempt) returns (outcome: Outcome)
    requires 0 <= color <= MaxColor
    modifies store, tracker
    ensures Step(outcome, store.conf, tracker.lastNoticeAt)
         == Handle(old(store.conf), old(tracker.lastNoticeAt), u, now, ts, color, first, retry)
  {
    if !(u.before.None? && u.after.Some?) {
      return Skipped(NotAJoin);
    }
    var gid := u.guildId;
    var vc := u.after.value;
    ghost var conf0 := store.conf;

    var cfg := store.GetGuildCfg(gid);   // inside vc_is_target
    var target := VcIsTarget(cfg, vc.id);
    if target.None? {
      return Raised;
    }
    if !target.value {
      return Skipped(NotATarget);
    }
    if HumanCount(vc.members) != 1 {
      return Skipped(NotFirstHuman);
    }

    FillDefaultsStable(conf0, gid, gid);
    var gcfg := store.GetGuildCfg(gid);
    assert gcfg == cfg;
    var url := Get(gcfg, WebhookKey);
    if !Truthy(url) {
      return Skipped(NoWebhook);
    }
    var cooldown := PyInt(GetOr(gcfg, CooldownKey, Int(DefaultCooldownSec)));
    if cooldown.None? {
      return Raised;
    }
    var granted := tracker.CanNotify(gid, vc.id, cooldown.value, now);
    if !granted {
      return Skipped(CoolingDown);
    }

    var mention := Mention(Get(gcfg, RoleKey));
    if mention.None? {
      return Raised;
    }
    var payload := Compose(vc.mention, u.member.displayName, u.member.avatarUrl, mention.value, ts, color);
    var ok, err, posts, slept := PostWebhook(first, retry);
    if ok {
      outcome := Delivered(payload, posts);
    } else {
      outcome := Undelivered(payload, err, posts);
    }
  }

  /** The cooldown map is touched only by a join that passed all four earlier
      guards, and then exactly as `can_notify` would touch it. */
  lemma CooldownOnlyAfterGuards(conf: Conf, last: map<Key, real>, u: VoiceUpdate, now: real, ts: int, color: int,
                                first: Attempt, retry: Attempt)
    requires 0 <= color <= MaxColor
    ensures var s := Handle(conf, last, u, now, ts, color, first, retry);
      && (!Eligible(u, Lookup(conf, u.guildId)) ==> s.last == last)
      && (Eligible(u, Lookup(conf, u.guildId)) && CooldownOf(Lookup(conf, u.guildId)).Some? ==>
            s.last == Acquire(last, (u.guildId, u.after.value.id), CooldownOf(Lookup(conf, u.guildId)).value, now))
  {
  }

  /** A notification is posted only for an eligible join that the cooldown
      granted; in particular never for a non-target channel or when anyone
      other than exactly one human is present. */
  lemma PostedOnlyWhenEligible(conf: Conf, last: map<Key, real>, u: VoiceUpdate, now: real, ts: int, color: int,
                               first: Attempt, retry: Attempt)
    requires 0 <= color <= MaxColor
    requires Handle(conf, last, u, now, ts, color, first, retry).outcome.Posted()
    ensures Eligible(u, Lookup(conf, u.guildId))
    ensures CooldownOf(Lookup(conf, u.guildId)).Some?
    ensures Grants(last, (u.guildId, u.after.value.id), CooldownOf(Lookup(conf, u.guildId)).value, now)
  {
  }

  /** The posted payload: composed from the event, the configured mention and
      the given `ts` and colour; it is reported delivered exactly when the
      dispatcher says so. */
  lemma PostedPayload(conf: Conf, last: map<Key, real>, u: VoiceUpdate, now: real, ts: int, color: int,
                      first: Attempt, retry: Attempt)
    requires 0 <= color <= MaxColor
    requires Handle(conf, last, u, now, ts, color, first, retry).outcome.Posted()
    ensures var o := Handle(conf, last, u, now, ts, color, first, retry).outcome;
      && Mention(Get(Lookup(conf, u.guildId), RoleKey)).Some?
      && o.payload == Compose(u.after.value.mention, u.member.displayName, u.member.avatarUrl,
                              Mention(Get(Lookup(conf, u.guildId), RoleKey)).value, ts, color)
      && (o.Delivered? <==> Dispatch(first, retry).ok)
      && o.posts == Dispatch(first, retry).posts
  {
    var cfg := Lookup(conf, u.guildId);
    PostedOnlyWhenEligible(conf, last, u, now, ts, color, first, retry);
    var mention := Mention(Get(cfg, RoleKey));
    assert mention.Some?;
    var payload := Compose(u.after.value.mention, u.member.displayName, u.member.avatarUrl, mention.value, ts, color);
    var d := Dispatch(first, retry);
    assert Handle(conf, last, u, now, ts, color, first, retry).outcome
        == if d.ok then Delivered(payload, d.posts) else Undelivered(payload, d.err, d.posts);
  }

  /** An eligible join is held back by the cooldown exactly when
      `can_notify` refuses it; otherwise it records `now` for its channel and
      is announced (posted, unless the role id fails to convert). */
  lemma EligibleJoinMeetsCooldown(conf: Conf, last: map<Key, real>, u: VoiceUpdate, now: real, ts: int, color: int,
                                  first: Attempt, retry: Attempt)
    requires 0 <= color <= MaxColor
    requires Eligible(u, Lookup(conf, u.guildId)) && CooldownOf(Lookup(conf, u.guildId)).Some?
    ensures var s := Handle(conf, last, u, now, ts, color, first, retry);
            var c := CooldownOf(Lookup(conf, u.guildId)).value;
            var key := (u.guildId, u.after.value.id);
      && s.conf == FillDefaults(conf, u.guildId)
      && (s.outcome == Skipped(CoolingDown) <==> !Grants(last, key, c, now))
      && (Grants(last, key, c, now) ==> s.outcome == Announce(Lookup(conf, u.guildId), u, ts, color, first, retry))
      && s.last == Acquire(last, key, c, now)
  {
  }

  /** Two eligible joins on the same channel at `t` and `t + delta`, the first
      one granted: the second is held back by the cooldown exactly when
      `delta` is less than the cooldown, and otherwise is announced. */
  lemma SecondJoinAndCooldown(conf: Conf, last: map<Key, real>, u: VoiceUpdate, t: real, delta: real, ts: int,
                              color: int, first: Attempt, retry: Attempt)
    requires 0 <= color <= MaxColor
    requires Eligible(u, Lookup(conf, u.guildId)) && CooldownOf(Lookup(conf, u.guildId)).Some?
    requires Grants(last, (u.guildId, u.after.value.id), CooldownOf(Lookup(conf, u.guildId)).value, t)
    ensures var s1 := Handle(conf, last, u, t, ts, color, first, retry);
            var s2 := Handle(s1.conf, s1.last, u, t + delta, ts, color, first, retry);
            var c := CooldownOf(Lookup(conf, u.guildId)).value;
      && (s2.outcome == Skipped(CoolingDown) <==> delta < c as real)
      && (delta >= c as real ==> s2.last == s1.last[(u.guildId, u.after.value.id) := t + delta])
      && (delta >= c as real ==> s2.outcome == Announce(Lookup(conf, u.guildId), u, ts, color, first, retry))
  {
    var key := (u.guildId, u.after.value.id);
    var c := CooldownOf(Lookup(conf, u.guildId)).value;
    EligibleJoinMeetsCooldown(conf, last, u, t, ts, color, first, retry);
    var s1 := Handle(conf, last, u, t, ts, color, first, retry);
    FillDefaultsStable(conf, u.guildId, u.guildId);
    assert Lookup(s1.conf, u.guildId) == Lookup(conf, u.guildId);
    EligibleJoinMeetsCooldown(s1.conf, s1.last, u, t + delta, ts, color, first, retry);
    CooldownWindow(last, key, c, t, delta);
  }

  /** A role-mention configuration with role 42, a webhook and cooldown 0: the
      first human joining a targeted channel gets a notification whose
      content ends with the role mention, and a 200 reply delivers it. */
  lemma RoleMentionScenario(conf: Conf, last: map<Key, real>, u: VoiceUpdate, now: real, ts: int, color: int)
    requires 0 <= color <= MaxColor
    requires IsJoin(u) && HumanCount(u.after.value.members) == 1
    requires var cfg := Lookup(conf, u.guildId);
      && Get(cfg, TargetKey) == IdList([u.after.value.id])
      && Get(cfg, WebhookKey) == Str("https://discord.com/api/webhooks/1/x")
      && Get(cfg, CooldownKey) == Int(0)
      && Get(cfg, RoleKey) == Int(42)
    requires LastNotice(last, (u.guildId, u.after.value.id)) <= now
    ensures var o := Handle(conf, last, u, now, ts, color, Answered(Reply(200, "", None)), TimedOut).outcome;
      o.Delivered? && o.posts == 1 && o.payload.content == ContentPrefix + "<@&42>"
  {
    assert IntToString(42) == "42" by { assert NatToString(4) == "4"; }
  }

  /** There is no test that the member who joined is human: a bot joining a
      channel where exactly one human already is passes every guard, and the
      notification names the bot as the one who started the call. */
  lemma BotJoinIsAnnounced(conf: Conf, last: map<Key, real>, u: VoiceUpdate, now: real, ts: int, color: int,
                           first: Attempt, retry: Attempt)
    requires 0 <= color <= MaxColor
    requires IsJoin(u) && u.member.isBot && HumanCount(u.after.value.members) == 1
    requires var cfg := Lookup(conf, u.guildId);
      && !Truthy(Get(cfg, TargetKey))
      && Truthy(Get(cfg, WebhookKey))
      && CooldownOf(cfg).Some?
      && Grants(last, (u.guildId, u.after.value.id), CooldownOf(cfg).value, now)
      && !Truthy(Get(cfg, RoleKey))
    ensures var o := Handle(conf, last, u, now, ts, color, first, retry).outcome;
      o.Posted() && o.payload.embeds[0].fields[1].value == u.member.displayName
  {
    ComposeShape(u.after.value.mention, u.member.displayName, u.member.avatarUrl, "@here", ts, color);
  }
}

=== FILE: pytext.dfy ===
/** The few Python string operations the bot relies on: `str.isspace`,
    `str.strip`, `str.startswith`, the `in` test on strings, `str(int)` and
    `int(str)`. Strings are sequences of Unicode scalar values. */
module PyText {
  import opened Wrappers

  /** Python's `str.isspace` for a single character. */
  predicate IsSpace(c: char) {
    || c == ' '
    || ('\t' <= c <= '\r')
    || ('\U{1c}' <= c <= '\U{1f}')
    || c == '\U{85}' || c == '\U{a0}' || c == '\U{1680}'
    || ('\U{2000}' <= c <= '\U{200a}')
    || c == '\U{2028}' || c == '\U{2029}' || c == '\U{202f}' || c == '\U{205f}'
    || c == '\U{3000}'
  }

  /** Leading whitespace removed: a suffix of `s` that starts with a
      non-space, and everything dropped was whitespace. */
  function StripLeft(s: string): (r: string)
    ensures |r| <= |s| && r == s[|s| - |r|..]
    ensures r == [] || !IsSpace(r[0])
    ensures forall i :: 0 <= i < |s| - |r| ==> IsSpace(s[i])
  {
    if s != [] && IsSpace(s[0]) then StripLeft(s[1..]) else s
  }

  /** Trailing whitespace removed: a prefix of `s` that ends with a
      non-space, and everything dropped was whitespace. */
  function StripRight(s: string): (r: string)
    ensures |r| <= |s| && r == s[..|r|]
    ensures r == [] || !IsSpace(r[|r| - 1])
    ensures forall i :: |r| <= i < |s| ==> IsSpace(s[i])
  {
    if s != [] && IsSpace(s[|s| - 1]) then StripRight(s[..|s| - 1]) else s
  }

  /** `s[i..j]` is what is left of `s` after dropping only whitespace before
      `i` and from `j` on. */
  predicate TrimmedAt(s: string, i: int, j: int) {
    && 0 <= i <= j <= |s|
    && (forall k :: 0 <= k < i ==> IsSpace(s[k]))
    && (forall k :: j <= k < |s| ==> IsSpace(s[k]))
  }

  /** Dropping a whitespace prefix of `s` to get `left`, then a whitespace
      suffix of `left` to get `r`, leaves `r` as a slice of `s` with only
      whitespace on either side. */
  lemma TrimTwice(s: string, left: string, r: string)
    requires |left| <= |s| && left == s[|s| - |left|..]
    requires forall k :: 0 <= k < |s| - |left| ==> IsSpace(s[k])
    requires |r| <= |left| && r == left[..|r|]
    requires forall k :: |r| <= k < |left| ==> IsSpace(left[k])
    ensures TrimmedAt(s, |s| - |left|, |s| - |left| + |r|)
    ensures r == s[|s| - |left|..|s| - |left| + |r|]
  {
    var i := |s| - |left|;
    forall k | i + |r| <= k < |s|
      ensures IsSpace(s[k])
    {
      assert s[k] == left[k - i];
    }
  }

  /** Python's `str.strip()` with no argument: the slice of `s` left after
      dropping whitespace at both ends, starting and ending with a non-space. */
  function Strip(s: string): (r: string)
    ensures exists i, j :: TrimmedAt(s, i, j) && r == s[i..j]
    ensures r == [] || (!IsSpace(r[0]) && !IsSpace(r[|r| - 1]))
  {
    var left := StripLeft(s);
    TrimTwice(s, left, StripRight(left));
    StripRight(left)
  }

  /** A string that neither starts nor ends with whitespace is its own strip. */
  lemma StripKeeps(s: string)
    requires s == [] || (!IsSpace(s[0]) && !IsSpace(s[|s| - 1]))
    ensures Strip(s) == s
  {
  }

  /** Python's `s.startswith(p)`. */
  predicate StartsWith(s: string, p: string) {
    |p| <= |s| && s[..|p|] == p
  }

  /** Python's `p in s` on strings: `p` occurs somewhere in `s`. */
  predicate Contains(s: string, p: string)
    decreases |s|
  {
    StartsWith(s, p) || (s != [] && Contains(s[1..], p))
  }

  /** `p` starting the suffix of `s` at offset `k` makes `p in s` true. */
  lemma {:induction false} ContainsAt(s: string, p: string, k: nat)
    requires k <= |s| && StartsWith(s[k..], p)
    ensures Contains(s, p)
    decreases k
  {
    if k > 0 {
      assert s[1..][k - 1..] == s[k..];
      ContainsAt(s[1..], p, k - 1);
    } else {
      assert s[k..] == s;
    }
  }

  /** A `p` that starts no suffix of `s` is not `in` it. */
  lemma {:induction false} ContainsNowhere(s: string, p: string)
    requires forall k :: 0 <= k <= |s| ==> !StartsWith(s[k..], p)
    ensures !Contains(s, p)
    decreases |s|
  {
    assert s[0..] == s;
    if s != [] {
      forall k | 0 <= k <= |s[1..]|
        ensures !StartsWith(s[1..][k..], p)
      {
        assert s[1..][k..] == s[k + 1..];
      }
      ContainsNowhere(s[1..], p);
    }
  }

  /** Conversely, `p in s` only when `p` starts some suffix of `s`, that is,
      occurs at some offset. */
  lemma ContainsFound(s: string, p: string)
    requires Contains(s, p)
    ensures exists k :: 0 <= k <= |s| && StartsWith(s[k..], p)
  {
    if forall k :: 0 <= k <= |s| ==> !StartsWith(s[k..], p) {
      ContainsNowhere(s, p);
      assert false;
    }
  }

  predicate IsDigit(c: char) {
    '0' <= c <= '9'
  }

  function DigitValue(c: char): (d: nat)
    requires IsDigit(c)
    ensures d < 10
  {
    c as int - '0' as int
  }

  function DigitChar(d: nat): (c: char)
    requires d < 10
    ensures IsDigit(c) && DigitValue(c) == d
  {
    ('0' as int + d) as char
  }

  predicate AllDigits(s: string) {
    forall i :: 0 <= i < |s| ==> IsDigit(s[i])
  }

  /** The number written by a string of decimal digits, most significant first. */
  function DigitsValue(s: string): nat
    requires AllDigits(s)
  {
    if s == [] then 0 else 10 * DigitsValue(s[..|s| - 1]) + DigitValue(s[|s| - 1])
  }

  /** Python's `str(n)` for a natural number: shortest decimal, no sign. */
  function NatToString(n: nat): (r: string)
    ensures |r| > 0 && AllDigits(r)
    ensures DigitsValue(r) == n
    ensures |r| > 1 ==> r[0] != '0'
  {
    if n < 10 then [DigitChar(n)]
    else
      var prefix := NatToString(n / 10);
      var r := prefix + [DigitChar(n % 10)];
      assert r[..|r| - 1] == prefix;
      r
  }

  /** A digit is never whitespace. */
  lemma DigitNotSpace(c: char)
    requires IsDigit(c)
    ensures !IsSpace(c)
  {
  }

  /** Python's `str(n)` for an integer: the decimal digits of `|n|` with no
      leading zero, after a minus sign when `n` is negative; it has no
      surrounding whitespace. */
  function IntToString(n: int): (r: string)
    ensures |r| > 0 && !IsSpace(r[0]) && !IsSpace(r[|r| - 1])
    ensures n >= 0 ==> AllDigits(r) && DigitsValue(r) == n
    ensures n < 0 ==> |r| > 1 && r[0] == '-' && AllDigits(r[1..]) && DigitsValue(r[1..]) == -n
    ensures n >= 0 && |r| > 1 ==> r[0] != '0'
    ensures n < 0 && |r| > 2 ==> r[1] != '0'
  {
    var ds := NatToString(if n < 0 then -n else n);
    DigitNotSpace(ds[0]);
    DigitNotSpace(ds[|ds| - 1]);
    if n < 0 then
      var r := "-" + ds;
      assert r[1..] == ds && r[|r| - 1] == ds[|ds| - 1];
      r
    else ds
  }

  /** The ASCII information separators U+001C..U+001F. `str.isspace` counts
      them as whitespace, but `int()` skips only the ASCII whitespace
      `\t\n\v\f\r` and space (and non-ASCII whitespace), so a separator
      anywhere in its argument makes it raise. */
  predicate IsSeparator(c: char) {
    '\U{1c}' <= c <= '\U{1f}'
  }

  predicate NoSeparator(s: string) {
    forall k :: 0 <= k < |s| ==> !IsSeparator(s[k])
  }

  /** Text `int()` accepts once stripped: one or more ASCII digits, possibly
      after one sign. */
  predicate IsIntText(t: string) {
    || (|t| > 0 && AllDigits(t))
    || (|t| > 1 && (t[0] == '-' || t[0] == '+') && AllDigits(t[1..]))
  }

  /** Python's `int(s)` for base-10 text: surrounding whitespace other than
      the separators is ignored, then an optional sign and one or more ASCII
      digits; anything else raises, which is `None` here. */
  function ParseInt(s: string): (r: Option<int>)
    ensures r.Some? <==> NoSeparator(s) && IsIntText(Strip(s))
    ensures r.Some? && AllDigits(Strip(s)) ==> r.value == DigitsValue(Strip(s))
    ensures r.Some? && Strip(s)[0] == '+' ==> r.value == DigitsValue(Strip(s)[1..])
    ensures r.Some? && Strip(s)[0] == '-' ==> r.value == -(DigitsValue(Strip(s)[1..]) as int)
  {
    var t := Strip(s);
    if !NoSeparator(s) then None
    else if |t| > 0 && (t[0] == '-' || t[0] == '+') then
      var ds := t[1..];
      if |ds| > 0 && AllDigits(ds) then
        var v: int := DigitsValue(ds);
        Some(if t[0] == '-' then -v else v)
      else None
    else if |t| > 0 && AllDigits(t) then Some(DigitsValue(t))
    else None
  }

  /** `int(str(n)) == n`: decimal rendering and parsing are inverse. */
  lemma ParseIntToString(n: int)
    ensures ParseInt(IntToString(n)) == Some(n)
  {
    var s := IntToString(n);
    StripKeeps(s);
    assert IsIntText(s);
    assert NoSeparator(s) by {
      forall k | 0 <= k < |s|
        ensures !IsSeparator(s[k])
      {
        if n < 0 && k > 0 {
          assert s[1..][k - 1] == s[k];
        }
      }
    }
    if n < 0 {
      assert !IsDigit(s[0]);
    }
  }

  /** Distinct integers render as distinct strings. */
  lemma IntToStringInjective(a: int, b: int)
    requires IntToString(a) == IntToString(b)
    ensures a == b
  {
    ParseIntToString(a);
    ParseIntToString(b);
  }

  /** The rendering of an integer never starts with a letter: it is a digit or `-`. */
  lemma IntToStringHead(n: int)
    ensures IsDigit(IntToString(n)[0]) || IntToString(n)[0] == '-'
  {
  }

  /** Python's `sep.join(parts)`. */
  function Join(sep: string, parts: seq<string>): (r: string)
    ensures parts == [] ==> r == []
    ensures |parts| == 1 ==> r == parts[0]
  {
    if parts == [] then []
    else if |parts| == 1 then parts[0]
    else parts[0] + sep + Join(sep, parts[1..])
  }

  /** Appending a part appends the separator and that part. */
  lemma {:induction false} JoinAppend(sep: string, parts: seq<string>, x: string)
    requires |parts| >= 1
    ensures Join(sep, parts + [x]) == Join(sep, parts) + sep + x
    decreases |parts|
  {
    if |parts| > 1 {
      assert (parts + [x])[1..] == parts[1..] + [x];
      JoinAppend(sep, parts[1..], x);
    } else {
      assert (parts + [x])[1..] == [x];
    }
  }
}

=== FILE: settings_view.dfy ===
/** The rules inside the settings panel's callbacks (ui_views/settings_view.py):
    input checks for the webhook URL and the cooldown, the role and target
    channel choices, the role option list and the status display. Discord
    UI calls (modals, replies, views) are not part of this model. */
module SettingsView {
  import opened Wrappers
  import opened PyText
  import opened ConfigUtil
  import Notify

  const WebhookPrefix: string := "https://discord.com/api/webhooks/"
  const MaxCooldownSec: int := 86400

  // ---- Role options (set_role_button) ----

  datatype Role = Role(id: int, name: string, isDefault: bool)

  datatype SelectOption = SelectOption(labelText: string, value: string)

  const HereOption: SelectOption := SelectOption("@here（デフォルト）", "none")

  /** A role offered for mentioning: not the guild's default role and not
      named `@everyone`. */
  predicate Mentionable(r: Role) {
    !r.isDefault && r.name != "@everyone"
  }

  /** The mentionable roles, in guild order. */
  function MentionableRoles(roles: seq<Role>): (rs: seq<Role>)
    ensures |rs| <= |roles|
    ensures forall r :: r in rs <==> r in roles && Mentionable(r)
  {
    if roles == [] then []
    else
      var rest := MentionableRoles(roles[1..]);
      assert forall r :: r in roles <==> r == roles[0] || r in roles[1..];
      if Mentionable(roles[0]) then [roles[0]] + rest else rest
  }

  /** Filtering keeps order: the mentionable roles of a concatenation are
      those of each part, one after the other. */
  lemma {:induction false} MentionableRolesAppend(a: seq<Role>, b: seq<Role>)
    ensures MentionableRoles(a + b) == MentionableRoles(a) + MentionableRoles(b)
    decreases |a|
  {
    if a != [] {
      assert (a + b)[1..] == a[1..] + b;
      MentionableRolesAppend(a[1..], b);
    } else {
      assert a + b == b;
    }
  }

  function RoleOption(r: Role): SelectOption {
    SelectOption(r.name, IntToString(r.id))
  }

  /** The option list of the role menu: the `@here` option, then one option
      per mentionable role in guild order. */
  function OptionsFor(roles: seq<Role>): seq<SelectOption> {
    var rs := MentionableRoles(roles);
    [HereOption] + seq(|rs|, i requires 0 <= i < |rs| => RoleOption(rs[i]))
  }

  /** The options of a list of roles with one more role at its end. */
  lemma RoleOptionsSnoc(rs: seq<Role>, r: Role)
    ensures var rs' := rs + [r];
      seq(|rs'|, i requires 0 <= i < |rs'| => RoleOption(rs'[i]))
        == seq(|rs|, i requires 0 <= i < |rs| => RoleOption(rs[i])) + [RoleOption(r)]
  {
  }

  /** One more role adds its option at the end exactly when it is mentionable. */
  lemma OptionsForAppend(roles: seq<Role>, r: Role)
    ensures OptionsFor(roles + [r]) == OptionsFor(roles) + (if Mentionable(r) then [RoleOption(r)] else [])
  {
    MentionableRolesAppend(roles, [r]);
    assert [r][1..] == [];
    if Mentionable(r) {
      RoleOptionsSnoc(MentionableRoles(roles), r);
    }
  }

  /** The option list as `set_role_button` builds it, appending in a loop. */
  method RoleOptions(roles: seq<Role>) returns (options: seq<SelectOption>)
    ensures options == OptionsFor(roles)
  {
    options := [HereOption];
    for i := 0 to |roles|
      invariant options == OptionsFor(roles[..i])
    {
      var r := roles[i];
      assert roles[..i + 1] == roles[..i] + [r];
      OptionsForAppend(roles[..i], r);
      if !r.isDefault && r.name != "@everyone" {
        options := options + [RoleOption(r)];
      }
    }
    assert roles[..|roles|] == roles;
  }

  // ---- Role choice (RoleSelect.callback) ----

  /** The value `RoleSelect` stores for a chosen option value: `None` for
      `"none"`, otherwise `int(val)`; `None` here if that conversion raises. */
  function RoleChoice(val: string): (r: Option<Value>)
    ensures val == "none" ==> r == Some(Null)
    ensures val != "none" ==> (r.Some? <==> NoSeparator(val) && IsIntText(Strip(val)))
    ensures val != "none" && r.Some? ==> r.value.Int? && ParseInt(val) == Some(r.value.n)
  {
    if val == "none" then Some(Null)
    else
      match ParseInt(val)
      case None => None
      case Some(id) => Some(Int(id))
  }

  /** Every option of the role menu maps back to what it offers: the first
      option to `None` (mention `@here`), the others to their role's id. */
  lemma {:induction false} OptionsChooseTheirRole(roles: seq<Role>, i: int)
    requires 0 <= i < |OptionsFor(roles)|
    ensures i == 0 ==> RoleChoice(OptionsFor(roles)[i].value) == Some(Null)
    ensures i > 0 ==> RoleChoice(OptionsFor(roles)[i].value) == Some(Int(MentionableRoles(roles)[i - 1].id))
  {
    if i > 0 {
      var rs := MentionableRoles(roles);
      OptionValueAt(rs, i);
      ChoiceOfRoleId(rs[i - 1].id);
    }
  }

  /** Option `i > 0` of the menu carries the id of mentionable role `i - 1`. */
  lemma OptionValueAt(rs: seq<Role>, i: int)
    requires 0 < i <= |rs|
    ensures ([HereOption] + seq(|rs|, k requires 0 <= k < |rs| => RoleOption(rs[k])))[i].value == IntToString(rs[i - 1].id)
  {
  }

  /** The text of a role id chooses that role. */
  lemma ChoiceOfRoleId(id: int)
    ensures RoleChoice(IntToString(id)) == Some(Int(id))
  {
    IntToStringHead(id);
    ParseIntToString(id);
  }

  method RoleSelectCallback(store: ConfigStore, gid: int, val: string) returns (stored: bool)
    modifies store
    ensures stored <==> RoleChoice(val).Some?
    ensures store.conf == if stored then Assign(old(store.conf), gid, RoleKey, RoleChoice(val).value)
                          else old(store.conf)
  {
    if val == "none" {
      store.SetGuildCfg(gid, RoleKey, Null);
      return true;
    }
    var id := ParseInt(val);
    if id.None? {
      return false;
    }
    store.SetGuildCfg(gid, RoleKey, Int(id.value));
    return true;
  }

  // ---- Webhook URL (WebhookModal.on_submit) ----

  /** The URL check: after stripping, the text must start with the Discord
      webhook prefix. */
  predicate AcceptsWebhookUrl(text: string) {
    StartsWith(Strip(text), WebhookPrefix)
  }

  method WebhookModalSubmit(store: ConfigStore, gid: int, text: string) returns (accepted: bool)
    modifies store
    ensures accepted <==> AcceptsWebhookUrl(text)
    ensures store.conf == if accepted then Assign(old(store.conf), gid, WebhookKey, Str(Strip(text)))
                          else old(store.conf)
  {
    var url := Strip(text);
    if !StartsWith(url, WebhookPrefix) {
      return false;
    }
    store.SetGuildCfg(gid, WebhookKey, Str(url));
    return true;
  }

  /** A URL the modal accepted is stored stripped, still has the prefix, and
      passes the handler's "webhook configured" guard. */
  lemma AcceptedWebhookIsConfigured(conf: Conf, gid: int, text: string)
    requires AcceptsWebhookUrl(text)
    ensures var v := Get(Lookup(Assign(conf, gid, WebhookKey, Str(Strip(text))), gid), WebhookKey);
      v == Str(Strip(text)) && StartsWith(v.s, WebhookPrefix) && Truthy(v)
  {
    SetThenGet(conf, gid, WebhookKey, Str(Strip(text)));
  }

  // ---- Cooldown (CooldownModal.on_submit) ----

  /** `int(text.strip())`, accepted only within 0..86400 seconds. */
  function ParseCooldown(text: string): (r: Option<int>)
    ensures r.Some? ==> 0 <= r.value <= MaxCooldownSec && ParseInt(Strip(text)) == r
    ensures r.None? ==> ParseInt(Strip(text)).None? || !(0 <= ParseInt(Strip(text)).value <= MaxCooldownSec)
  {
    var n := ParseInt(Strip(text));
    if n.Some? && 0 <= n.value <= MaxCooldownSec then n else None
  }

  /** The decimal text of a number is accepted exactly when the number is in range. */
  lemma ParseCooldownOfNumber(n: int)
    ensures ParseCooldown(IntToString(n)) == if 0 <= n <= MaxCooldownSec then Some(n) else None
  {
    var s := IntToString(n);
    IntToStringHead(n);
    assert !IsSpace(s[0]) && !IsSpace(s[|s| - 1]) by {
      if n < 0 {
        assert s[|s| - 1] == NatToString(-n)[|NatToString(-n)| - 1];
      }
    }
    StripKeeps(s);
    ParseIntToString(n);
  }

  method CooldownModalSubmit(store: ConfigStore, gid: int, text: string) returns (accepted: bool)
    modifies store
    ensures accepted <==> ParseCooldown(text).Some?
    ensures store.conf == if accepted then Assign(old(store.conf), gid, CooldownKey, Int(ParseCooldown(text).value))
                          else old(store.conf)
  {
    var sec := ParseInt(Strip(text));
    if sec.None? || !(0 <= sec.value <= MaxCooldownSec) {
      assert ParseCooldown(text).None?;
      return false;
    }
    assert ParseCooldown(text) == sec;
    store.SetGuildCfg(gid, CooldownKey, Int(sec.value));
    return true;
  }

  /** A cooldown the modal accepted is what the handler then reads. */
  lemma AcceptedCooldownIsUsed(conf: Conf, gid: int, text: string)
    requires ParseCooldown(text).Some?
    ensures Notify.CooldownOf(Lookup(Assign(conf, gid, CooldownKey, Int(ParseCooldown(text).value)), gid))
         == ParseCooldown(text)
  {
    SetThenGet(conf, gid, CooldownKey, Int(ParseCooldown(text).value));
  }

  // ---- Target channels (VCSelect.callback) ----

  function Elements(xs: seq<int>): set<int> {
    set x | x in xs
  }

  predicate Distinct(xs: seq<int>) {
    forall i, j :: 0 <= i < j < |xs| ==> xs[i] != xs[j]
  }

  /** The target set after selecting `v`: removed if present, added otherwise,
      which is the symmetric difference with `{v}`. */
  function Toggled(s: set<int>, v: int): (r: set<int>)
    ensures r == (s - {v}) + ({v} - s)
    ensures v in r <==> v !in s
  {
    if v in s then s - {v} else s + {v}
  }

  /** Selecting the same channel twice gives back the original set. */
  lemma ToggleTwice(s: set<int>, v: int)
    ensures Toggled(Toggled(s, v), v) == s
  {
  }

  /** A non-empty set has an element. */
  lemma HasElement(s: set<int>)
    requires s != {}
    ensures exists x :: x in s
  {
    if forall x :: x !in s {
      assert false;
    }
  }

  /** `list(s)`: the elements of a set, each once, in an order Python does
      not specify. */
  method SetToList(s: set<int>) returns (xs: seq<int>)
    ensures Elements(xs) == s && |xs| == |s| && Distinct(xs)
  {
    xs := [];
    var rest := s;
    while rest != {}
      invariant rest !! Elements(xs)
      invariant Elements(xs) + rest == s
      invariant Distinct(xs)
      invariant |xs| + |rest| == |s|
      decreases rest
    {
      HasElement(rest);
      var x :| x in rest;
      xs := xs + [x];
      rest := rest - {x};
    }
  }

  /** The targets the callback reads: `set(map(int, target_vc_ids))`. */
  function TargetIds(conf: Conf, gid: int): Option<seq<int>> {
    PyIterInts(GetOr(Lookup(conf, gid), TargetKey, IdList([])))
  }

  /** `VCSelect.callback` for the selected option value. It returns the list
      it wrote, or `None` where Python raises before writing. */
  method VcSelectCallback(store: ConfigStore, gid: int, selected: string) returns (written: Option<seq<int>>)
    modifies store
    ensures ParseInt(selected).None? ==> written.None? && store.conf == old(store.conf)
    ensures ParseInt(selected).Some? && TargetIds(old(store.conf), gid).None? ==>
      written.None? && store.conf == FillDefaults(old(store.conf), gid)
    ensures ParseInt(selected).Some? && TargetIds(old(store.conf), gid).Some? ==>
      && written.Some?
      && store.conf == Assign(FillDefaults(old(store.conf), gid), gid, TargetKey, IdList(written.value))
      && Elements(written.value) == Toggled(Elements(TargetIds(old(store.conf), gid).value), ParseInt(selected).value)
      && Distinct(written.value)
  {
    var val := ParseInt(selected);
    if val.None? {
      return None;
    }
    var gcfg := store.GetGuildCfg(gid);
    var ids := PyIterInts(GetOr(gcfg, TargetKey, IdList([])));
    if ids.None? {
      return None;
    }
    var vcSet := Elements(ids.value);
    if val.value in vcSet {
      vcSet := vcSet - {val.value};
    } else {
      vcSet := vcSet + {val.value};
    }
    var xs := SetToList(vcSet);
    store.SetGuildCfg(gid, TargetKey, IdList(xs));
    return Some(xs);
  }

  /** Selecting the same channel twice leaves the guild's target channels,
      read as a set, as they were (the list order may differ). */
  method ReselectRestoresTargets(store: ConfigStore, gid: int, selected: string)
    requires ParseInt(selected).Some? && TargetIds(store.conf, gid).Some?
    modifies store
    ensures TargetIds(store.conf, gid).Some?
    ensures Elements(TargetIds(store.conf, gid).value) == Elements(TargetIds(old(store.conf), gid).value)
  {
    ghost var before := TargetIds(store.conf, gid).value;
    ghost var conf0 := store.conf;
    var first := VcSelectCallback(store, gid, selected);
    SetThenGet(FillDefaults(conf0, gid), gid, TargetKey, IdList(first.value));
    assert TargetIds(store.conf, gid) == Some(first.value);
    ghost var conf1 := store.conf;
    var second := VcSelectCallback(store, gid, selected);
    SetThenGet(FillDefaults(conf1, gid), gid, TargetKey, IdList(second.value));
    ToggleTwice(Elements(before), ParseInt(selected).value);
  }

  // ---- Status display (check_status_button) ----

  const Registered: string := "✅ 登録済み"
  const NotRegistered: string := "❌ 未登録"
  const AllChannels: string := "全VC対象"

  datatype Status = Status(webhook: string, role: string, cooldown: string, channels: string)

  /** The mention line of the status display. */
  function RoleText(role: Value): string {
    if Truthy(role) then "<@&" + PyStr(role) + ">" else "@here"
  }

  /** A channel's display name: its name, or `(不明:id)` for an id the guild
      does not know. */
  function ChannelName(channels: map<int, string>, cid: int): string {
    if cid in channels then channels[cid] else "(不明:" + IntToString(cid) + ")"
  }

  /** The status embed's four values; `None` where Python raises while
      listing the target channels. */
  function StatusOf(gcfg: GuildCfg, channels: map<int, string>): (r: Option<Status>)
    ensures r.Some? <==> PyIterInts(GetOr(gcfg, TargetKey, IdList([]))).Some?
    ensures r.Some? ==> (r.value.webhook == Registered <==> Truthy(Get(gcfg, WebhookKey)))
    ensures r.Some? && PyIterInts(GetOr(gcfg, TargetKey, IdList([]))).value == [] ==> r.value.channels == AllChannels
    ensures r.Some? ==> r.value.role == RoleText(Get(gcfg, RoleKey))
  {
    match PyIterInts(GetOr(gcfg, TargetKey, IdList([])))
    case None => None
    case Some(ids) =>
      var names := seq(|ids|, i requires 0 <= i < |ids| => ChannelName(channels, ids[i]));
      Some(Status(
        if Truthy(Get(gcfg, WebhookKey)) then Registered else NotRegistered,
        RoleText(Get(gcfg, RoleKey)),
        PyStr(GetOr(gcfg, CooldownKey, Int(300))) + " 秒",
        if names == [] then AllChannels else Join(", ", names)))
  }

  /** A join of two or more parts has the separator right after the first part. */
  lemma {:induction false} JoinSeparatorAt(sep: string, parts: seq<string>)
    requires |parts| >= 2
    ensures |Join(sep, parts)| >= |parts[0]| + |sep|
    ensures Join(sep, parts)[|parts[0]|..|parts[0]| + |sep|] == sep
  {
    var rest := Join(sep, parts[1..]);
    assert Join(sep, parts) == parts[0] + sep + rest;
    assert (parts[0] + sep + rest)[|parts[0]|..|parts[0]| + |sep|] == sep;
  }

  /** The channel line reads "all channels" only for an empty target list,
      unless a listed channel is itself named that way. */
  lemma AllChannelsOnlyWhenNoTargets(gcfg: GuildCfg, channels: map<int, string>)
    requires StatusOf(gcfg, channels).Some?
    requires PyIterInts(GetOr(gcfg, TargetKey, IdList([]))).value != []
    requires forall cid :: cid in channels ==> channels[cid] != AllChannels
    ensures StatusOf(gcfg, channels).value.channels != AllChannels
  {
    var ids := PyIterInts(GetOr(gcfg, TargetKey, IdList([]))).value;
    var names := seq(|ids|, i requires 0 <= i < |ids| => ChannelName(channels, ids[i]));
    assert StatusOf(gcfg, channels).value.channels == Join(", ", names);
    if |names| == 1 {
      if ids[0] !in channels {
        assert names[0][0] == '(' && AllChannels[0] != '(';
      }
    } else {
      JoinSeparatorAt(", ", names);
      var text := Join(", ", names);
      assert text[|names[0]|] == ',';
      assert forall k :: 0 <= k < |AllChannels| ==> AllChannels[k] != ',';
    }
  }

  /** For every value the role menu stores, the status display shows the same
      mention the notification uses. */
  lemma StatusRoleMatchesNotification(val: string)
    requires RoleChoice(val).Some?
    ensures Notify.Mention(RoleChoice(val).value) == Some(RoleText(RoleChoice(val).value))
  {
  }
}

=== FILE: webhook.dfy ===
/** `post_webhook` of bot.py: one POST, at most one retry after a 429 that
    carries a positive `retry_after`, and a `(ok, reason)` result. The HTTP
    exchange is abstract: each POST's outcome is given as an `Attempt`. */
module Webhook {
  import opened Wrappers
  import opened PyText

  const RetryCapSec: real := 5.0

  /** What one POST came back with. `retryAfter` is the value
      `float(data.get("retry_after", 0))` yields for a JSON body, or `None`
      when decoding the body or the conversion raises. */
  datatype Reply = Reply(status: int, contentType: string, retryAfter: Option<real>)

  /** One POST: a reply, the 10-second timeout, or another transport fault
      with its message text. */
  datatype Attempt = Answered(reply: Reply) | TimedOut | Fault(message: string)

  /** The result pair, with the number of POSTs made and the time slept. */
  datatype Delivery = Delivery(ok: bool, err: string, posts: nat, slept: real)

  predicate Is2xx(status: int) {
    200 <= status < 300
  }

  /** `ra` as the 429 branch computes it: the hint when the reply declares
      JSON and the hint could be read, 0 otherwise. */
  function RetryHint(r: Reply): real {
    if Contains(r.contentType, "application/json") && r.retryAfter.Some? then r.retryAfter.value else 0.0
  }

  predicate RetryDue(first: Attempt) {
    first.Answered? && first.reply.status == 429 && RetryHint(first.reply) > 0.0
  }

  function Min(a: real, b: real): real {
    if a <= b then a else b
  }

  /** The reason text of an exception raised by a POST. */
  function FaultReason(a: Attempt): string
    requires !a.Answered?
  {
    if a.TimedOut? then "timeout" else a.message
  }

  /** The whole exchange. `retry` is what the second POST would produce; it is
      looked at only when a retry happens. */
  function Dispatch(first: Attempt, retry: Attempt): (d: Delivery)
    ensures 1 <= d.posts <= 2
    ensures d.posts == 2 <==> RetryDue(first)
    ensures d.ok <==> (first.Answered? && Is2xx(first.reply.status))
                      || (RetryDue(first) && retry.Answered? && Is2xx(retry.reply.status))
    ensures d.ok ==> d.err == ""
    ensures d.posts == 2 ==> 0.0 < d.slept <= RetryCapSec && d.slept == Min(RetryHint(first.reply), RetryCapSec)
    ensures d.posts == 1 ==> d.slept == 0.0
    ensures first.TimedOut? ==> d == Delivery(false, "timeout", 1, 0.0)
    ensures first.Answered? && !Is2xx(first.reply.status) && !RetryDue(first) ==>
      d == Delivery(false, "HTTP " + IntToString(first.reply.status), 1, 0.0)
    ensures RetryDue(first) && retry.Answered? && !Is2xx(retry.reply.status) ==>
      d.err == "HTTP " + IntToString(retry.reply.status) + " after retry"
    ensures RetryDue(first) && retry.TimedOut? ==> !d.ok && d.err == "timeout"
    ensures first.Fault? ==> d == Delivery(false, first.message, 1, 0.0)
    ensures RetryDue(first) && retry.Fault? ==> !d.ok && d.err == retry.message
  {
    match first
    case TimedOut => Delivery(false, "timeout", 1, 0.0)
    case Fault(msg) => Delivery(false, msg, 1, 0.0)
    case Answered(r) =>
      if Is2xx(r.status) then Delivery(true, "", 1, 0.0)
      else if r.status == 429 && RetryHint(r) > 0.0 then
        var wait := Min(RetryHint(r), RetryCapSec);
        match retry
        case TimedOut => Delivery(false, "timeout", 2, wait)
        case Fault(msg) => Delivery(false, msg, 2, wait)
        case Answered(r2) =>
          if Is2xx(r2.status) then Delivery(true, "", 2, wait)
          else Delivery(false, "HTTP " + IntToString(r2.status) + " after retry", 2, wait)
      else Delivery(false, "HTTP " + IntToString(r.status), 1, 0.0)
  }

  /** `post_webhook(url, payload)`, step by step. The URL and payload do not
      affect how replies are handled, so only the attempts are inputs. */
  method PostWebhook(first: Attempt, retry: Attempt) returns (ok: bool, err: string, posts: nat, slept: real)
    ensures Delivery(ok, err, posts, slept) == Dispatch(first, retry)
  {
    posts, slept := 1, 0.0;
    if !first.Answered? {
      return false, FaultReason(first), posts, slept;
    }
    var r := first.reply;
    if Is2xx(r.status) {
      return true, "", posts, slept;
    }
    if r.status == 429 {
      var ra := 0.0;
      if Contains(r.contentType, "application/json") && r.retryAfter.Some? {
        ra := r.retryAfter.value;
      }
      if ra > 0.0 {
        slept := Min(ra, RetryCapSec);
        posts := 2;
        if !retry.Answered? {
          return false, FaultReason(retry), posts, slept;
        }
        if Is2xx(retry.reply.status) {
          return true, "", posts, slept;
        }
        return false, "HTTP " + IntToString(retry.reply.status) + " after retry", posts, slept;
      }
    }
    return false, "HTTP " + IntToString(r.status), posts, slept;
  }

  /** A 429 asking to wait 2 seconds, then a 200: delivered after sleeping
      2 seconds, with exactly two POSTs. */
  lemma RateLimitedThenDelivered(retryAfter: real)
    requires 0.0 < retryAfter
    ensures Dispatch(Answered(Reply(429, "application/json; charset=utf-8", Some(retryAfter))),
                     Answered(Reply(200, "", None)))
            == Delivery(true, "", 2, Min(retryAfter, RetryCapSec))
  {
    ContainsAt("application/json; charset=utf-8", "application/json", 0);
  }

  /** A 429 with a hint followed by another 429 gives up after two POSTs. */
  lemma GivesUpAfterOneRetry(hint: real)
    requires 0.0 < hint
    ensures var d := Dispatch(Answered(Reply(429, "application/json", Some(hint))), Answered(Reply(429, "application/json", Some(hint))));
            !d.ok && d.posts == 2 && d.err == "HTTP 429 after retry"
  {
    ContainsAt("application/json", "application/json", 0);
    assert IntToString(429) == "429" by {
      assert NatToString(42) == "42" by { assert NatToString(4) == "4"; }
    }
  }
}

=== FILE: wrappers.dfy ===
/** Optional values, standing for Python's `None`-or-value results and for
    conversions that raise instead of returning. */
module Wrappers {
  datatype Option<+T> = None | Some(value: T)
}
